=== FILE: README.md ===
# Fractal renderer: a Dafny model

This project models the computational core of a small browser fractal renderer.
The renderer draws the Mandelbrot set into an RGBA pixel buffer in one of two ways:

- The built-in renderer is plain JavaScript. It runs as `render_native` in the web worker (`fractal-web/worker.js`) and as `renderNative` on the page (`fractal-web/main.js`).
- The render kernel is a WebAssembly module compiled from Rust (`fractal-draw`). It calls back into the worker through an import table.

Either way, each pixel's escape-time step count is turned into a 24-bit colour by a theme module (`fractal-theme`).
The worker keeps three slots, filled by messages from the page: the image, the theme and the kernel.
It posts progress and the finished image back to the page.
`wasm-simple` is a separate introductory example: a `u64` addition and the WebAssembly body compiled from it.

The model is purely functional, apart from `Pixels.DrawInPlace`, which writes a mutable byte array. The pixel buffer is an `Image` value (width, height and a byte sequence).
The render passes are methods that return the new buffer together with their observable behaviour, which is one of two things:

- a trace of events: pixel writes, posted messages and the page's `refresh`;
- for the kernel, the list of calls it makes through its imports.

Real arithmetic replaces IEEE-754 doubles. The theme is a value of a datatype, not a build-time feature.

Files:

- `words.dfy`: machine-integer ranges and `Option`.
- `theme.dfy`: colour packing and the integer themes.
- `pixels.dfy`: the RGBA buffer and `draw`.
- `escape.dfy`: the escape-time iteration.
- `viewport.dfy`: how pixels map to points, for both renderers.
- `scan.dfy`: row-major order and the progress fractions.
- `protocol.dfy`: the worker's messages.
- `native.dfy`: the built-in passes.
- `kernel.dfy`: the kernel and its imports.
- `worker.dfy`: the worker's message handler.
- `wasm_simple.dfy`: the `add` example.

## Model

| member | source | states |
|---|---|---|
| Pixels.Draw | fractal-web/worker.js:136-146 | For an in-range pixel, the bytes at `(width*y+x)*4 .. +3` become the low, second and third bytes of the colour, then `0xFF`. Every other byte is unchanged, and the buffer keeps its size. |
| Pixels.DrawInPlace | fractal-web/main.js:97-107 | The page's `Canvas.draw` on a mutable byte array leaves exactly the buffer `Draw` describes. |
| Pixels.IndexInRange | fractal-web/worker.js:141 | For an in-range pixel, the four bytes at its index lie inside a `width*height*4` buffer. |
| Pixels.IndexDisjoint | fractal-web/worker.js:141 | Two different pixels of the same row width write disjoint four-byte ranges. |
| Pixels.DrawPixelAt | fractal-web/worker.js:141-145 | After drawing `(x, y)`, that pixel reads back as the colour's RGBA bytes, and every other pixel reads back as before. |
| Pixels.HighByteIgnored | fractal-web/worker.js:137-139 | Bits 24-31 of the colour never matter: drawing `color` and drawing `color mod 2^24` leave identical buffers. |
| Pixels.Unpack | fractal-web/worker.js:137-139 | Splitting a word with the masks and shifts gives a colour that packs back to the word's low 24 bits. |
| Pixels.UnpackPack | fractal-web/worker.js:137-139 | Unpacking a packed colour returns the original red, green and blue. |
| Pixels.DrawPacked | fractal-web/worker.js:136-146 | Drawing a packed theme colour stores exactly its red, green and blue, plus alpha `0xFF`. |
| Pixels.PixelsDetermineImage | fractal-web/worker.js:141-145 | Every byte of a buffer belongs to exactly one pixel, so two same-sized buffers with equal pixels are equal. |
| Pixels.DrawKeepsLaterRows | fractal-web/worker.js:141-145 | Drawing a pixel of row `y` leaves every byte from the start of row `y + 1` to the end of the buffer unchanged. |
| Pixels.PaintedAfterDraw | fractal-web/worker.js:157-173 | Drawing the next pixel in row-major order with its colour extends the correctly coloured prefix by one pixel. |
| Theme.Pack | fractal-theme/src/lib.rs:21-25 | A packed colour is below `2^24`. |
| Theme.PackInjective | fractal-theme/src/lib.rs:24 | Two colours pack to the same word if and only if they are the same colour. |
| Theme.ColorOf | fractal-theme/src/lib.rs:53-68 | `simple` sets red, green and blue to `steps mod 256`. `red`, `green` and `blue` set the named channel to `steps mod 256` and the other two to 0. |
| Theme.ColorPixel | fractal-theme/src/lib.rs:28-31 | The exported colour always fits in 24 bits. |
| Theme.MaxSteps | fractal-theme/src/lib.rs:52-68 | Every integer theme's budget is 256. |
| Theme.OnlyStepsMatter | fractal-theme/src/lib.rs:53-68 | The colour ignores the point. Two step counts give the same colour if and only if they agree mod 256. |
| Theme.ExhaustedIsBlack | fractal-theme/src/lib.rs:53-56 | A point that uses the whole budget gets level 0, which is black in every integer theme. |
| Escape.KernelStepIsStep | fractal-draw/src/lib.rs:47 | The kernel's complex `z * z + c` is the same map as the worker's update through `old_re`. |
| Escape.CountFrom | fractal-web/worker.js:164-168 | The loop, started with `steps <= max`, ends with a count between its start and `max`. |
| Escape.Count | fractal-web/worker.js:161-169 | The step count never exceeds the budget. |
| Escape.CountIsEscapeTime | fractal-web/worker.js:161-169 | The count is `s` if and only if `z_0 .. z_{s-1}` have not escaped and either `s == max` or `z_s` has escaped. |
| Escape.CountAtLeastOne | fractal-web/worker.js:161-169 | With a budget of at least 1, the count is between 1 and the budget. |
| Escape.CountOfZero | fractal-web/worker.js:164-168 | `c = 0` uses the whole budget. |
| Escape.CountOfFar | fractal-web/worker.js:164-168 | A `c` with `|c| >= 2`, for example `c = 2`, stops after exactly one step when the budget is at least 1. |
| Escape.OrbitOfPeriodTwo | fractal-web/worker.js:164-168 | An orbit that is back at 0 after two steps alternates between 0 and `c`. |
| Escape.MinusOneReturns | fractal-web/worker.js:164-168 | `c = -1` is back at 0 after two steps. |
| Escape.CountOfMinusOne | fractal-web/worker.js:164-168 | `c = -1` never escapes: its count equals the budget, whatever the budget. The cycle behind this is Escape.MinusOneReturns and Escape.OrbitOfPeriodTwo. |
| Escape.CountOfMinusOneMinusI | fractal-web/worker.js:164-168 | Under any budget of at least 3, the count of `c = -1 - i` is exactly 3. |
| Escape.EscapeSteps | fractal-web/worker.js:161-169 | The worker's and the page's loop return the escape time of `c`. |
| Escape.KernelEscapeSteps | fractal-draw/src/lib.rs:42-49 | `draw_steps`'s loop returns the same escape time. |
| Viewport.Distance | fractal-web/worker.js:152 | The pixel size `1 / 2^zoom` is positive for every integer zoom. |
| Viewport.DistanceHalves | fractal-web/worker.js:152 | Zoom 0 is one unit per pixel, and each further zoom level halves the pixel. |
| Viewport.WrappingOverflowsOnLowerHalf | fractal-draw/src/lib.rs:29-30 | Left of or above the centre, the `u32` subtraction gives the signed offset plus `2^32`, which is at least `2^31`. |
| Viewport.WrappingAgreesOnUpperHalf | fractal-draw/src/lib.rs:29-30 | Right of or below the centre, the `u32` subtraction is exact. |
| Viewport.WrappingPointAgreesOnLowerRight | fractal-draw/src/lib.rs:29-34 | In the bottom-right quarter, both builds of the kernel compute the same `c`. |
| Viewport.SignedOffsetMatchesNative | fractal-web/worker.js:159-160 | The signed integer offset is 0 at `dim / 2` and grows by 1 per pixel. It equals the JavaScript offset for even dimensions and is half a pixel larger for odd ones. |
| Viewport.SignedKernelPointMatchesNative | fractal-draw/src/lib.rs:29-34 | With signed offsets and even dimensions, the kernel's `c` is the built-in renderer's `c`. |
| Scan.RowMajorScan | fractal-web/worker.js:157-158 | The nested loops visit `width*height` positions, strictly in row-major order. They are exactly the positions inside the image. |
| Scan.RowMajorExactlyOnce | fractal-web/worker.js:157-158 | No position is visited twice. |
| Scan.FractionsRange | fractal-web/worker.js:174 | The progress values are `k / height`. They start at 0, strictly increase and stay below 1. |
| Native.RenderPixel | fractal-web/worker.js:159-171 | The loop body computes the pixel's point, runs the escape loop and returns the colour the reference definition assigns to that pixel. |
| Native.RenderRow | fractal-web/worker.js:158-173 | One row is drawn left to right, and each pixel gets the theme's colour for its escape time. The bytes of the later rows are unchanged. |
| Native.RenderWorker | fractal-web/worker.js:149-178 | Every pixel gets its colour. The trace is the row writes, each row followed by progress `y / height`, then one paint of the finished buffer. |
| Native.RenderPage | fractal-web/main.js:23-55 | The same pixels in the same order, with no progress and one `refresh` at the end. |
| Native.RowsShape | fractal-web/worker.js:157-175 | The rows write the pixels in row-major order. They post `0/h .. (rows-1)/h` when the pass reports progress and nothing otherwise. They never paint or refresh. |
| Native.WorkerTraceShape | fractal-web/worker.js:157-177 | A whole worker pass writes each pixel exactly once, row-major, and posts `height` progress values. The paint comes exactly once and is the last event. |
| Native.PageTraceShape | fractal-web/main.js:35-54 | A whole page pass writes each pixel exactly once, row-major, posts no progress, and ends with one `refresh`. |
| Native.PassDeterministic | fractal-web/worker.js:149-178 | The buffer a pass leaves is determined by the image size, the theme and the view. |
| Kernel.ImportsForward | fractal-web/worker.js:102-120 | The queries answer with the image's width and height, the budget 256 and the theme's colour, and change nothing. `draw_pixel` changes only the pixel it names. `progress` and `paint` post one message each, carrying the value or the current image. |
| Kernel.DrawSteps | fractal-draw/src/lib.rs:42-57 | For one pixel, the calls are `max_steps`, then `color_pixel` with the pixel's escape count and `c`, then `draw_pixel` with that colour. The image changes at that pixel only. |
| Kernel.DrawRow | fractal-draw/src/lib.rs:28-36 | One row is drawn left to right with the kernel's colours, and nothing is posted. The bytes of the later rows are unchanged. |
| Kernel.DrawRows | fractal-draw/src/lib.rs:27-38 | All rows are drawn, and after row `y` the worker posts progress `y / height`. |
| Kernel.Render | fractal-draw/src/lib.rs:22-40 | Under the worker's imports, every pixel gets the kernel's colour. The worker posts `height` progress messages, then the finished image. The calls are exactly the dimensions, the rows, then `paint`. |
| Kernel.ObservedRows | fractal-draw/src/lib.rs:27-38 | Seen from the page, the kernel's rows are the worker's built-in rows with the kernel's colours: the same writes in the same order, and the same progress. |
| Kernel.RenderShape | fractal-draw/src/lib.rs:22-40 | The width and then the height are read first. Between them and `paint` there are only pixel calls, and every write is inside the image. The writes cover the image once each, row-major. Progress is `0/h .. (h-1)/h`, and `paint` comes once, last. |
| Kernel.SignedMatchesNative | fractal-draw/src/lib.rs:29-35 | With a signed offset and even dimensions, for any zoom, the kernel colours every pixel as the built-in renderers do. |
| Kernel.WrappingMatchesNativeOnLowerRight | fractal-draw/src/lib.rs:29-30 | With the wrapping offset and even width and height, for any zoom, the kernel still agrees with the built-in renderers on the bottom-right quarter. For odd dimensions the integer and real halves differ, so no agreement is claimed there. |
| Kernel.WrappingCounterexample | fractal-draw/src/lib.rs:29-30 | In a 4×4 image at zoom 0 centred on the origin, the wrapping build puts pixel (1, 1) at `(2^32 - 1)(1 + i)`, which escapes in one step. The signed build and the built-in renderer put it at `-1 - i`, which escapes after three steps, so the colours differ. |
| Kernel.WrappedPixelEscapes | fractal-draw/src/lib.rs:29-35 | With the wrapping build, pixel (1, 1) of that image is `(2^32 - 1)(1 + i)`, its count is 1, and its colour is the theme's colour for 1 step. |
| Kernel.SignedPixelEscapes | fractal-draw/src/lib.rs:29-35 | With the signed build, pixel (1, 1) of that image is `-1 - i`, its count is 3, and its colour is the one the built-in renderers give it. |
| Worker.MessagesOfRows | fractal-web/worker.js:174 | The built-in rows post exactly one progress message per row, `y / height`, in order. |
| Worker.HandleRenderNative | fractal-web/worker.js:21-27 | It throws if and only if the image or theme slot is empty. Otherwise it repaints the image, posts the progress messages and then the image, and keeps the other slots. |
| Worker.HandleRenderWasm | fractal-web/worker.js:28-33 | It throws if and only if the kernel or image slot is empty, or the theme slot is empty and the image has pixels. Otherwise it repaints with the kernel's colours and posts the same messages as the built-in pass. |
| Worker.OnMessage | fractal-web/worker.js:10-35 | An `image`, `theme` or `wasm` message replaces exactly that slot. An unknown type changes nothing. Both render messages post `height` progress messages and one paint. |
| Worker.RenderPathsAgree | fractal-web/worker.js:21-33 | With the signed kernel build and even dimensions, both render messages leave the same image and post the same messages. |
| WasmSimple.AddExact | wasm-simple/src/lib.rs:3-5 | `add(a, b)` is `a + b` if and only if the sum fits in 64 bits. Otherwise it is `a + b - 2^64`. |
| WasmSimple.AddCommutes | wasm-simple/src/lib.rs:3-5 | `add` is commutative. |
| WasmSimple.AddZero | wasm-simple/src/lib.rs:4 | 0 is a neutral element on both sides. |
| WasmSimple.CompiledAdd | wasm-simple/src/lib.rs:11-14 | The emitted body pushes `b`, then `a`, and adds them, producing `add(a, b)`. |
| WasmSimple.CompiledAddNeedsBothParameters | wasm-simple/src/lib.rs:11-14 | Given fewer than two parameters, the body traps. |

## Left out

- Asynchronous loading of the theme and kernel modules (`FileReader`, `WebAssembly.instantiate`, promises) is runtime I/O. A slot holds the loaded module directly. A module that is still loading is not modelled.
- DOM and canvas work (page setup, canvas sizing, `putImageData`) is out of scope. `refresh` is an opaque event.
- `postMessage` transport and the split between worker and page thread are out of scope. Posting a message appends to a sequence.
- IEEE-754 rounding is not modelled: points, orbits, distances and progress values are exact reals. Whether an orbit escapes can differ from what doubles compute.
- A debug build of the kernel does not wrap: the `u32` subtraction `pixel_x - width/2` panics at the very first pixel, (0, 0), of any image at least 2 pixels wide. Only the release build's wrap-around (`WrappingU32`) and the corrected signed build (`SignedI64`) are modelled.
- The `position` and `demo` themes, and the `cfg(feature)` selection mechanics, are not modelled.
- Cross-language marshalling is not modelled. This covers the theme's `u64` step count and budget against the kernel's `u32` imports. It also covers the conversion of a JavaScript number to the kernel's `u32` zoom. With the theme crate's `u64` signatures (fractal-theme/src/lib.rs:28-36), the WebAssembly JavaScript API throws a `TypeError` at the first pixel on both render paths. The built-in pass passes a JavaScript number as the `u64` step count (fractal-web/worker.js:171). The kernel's `max_steps` import (fractal-web/worker.js:116) returns the `BigInt` that a `u64` result becomes, where the kernel declares `u32` (fractal-draw/src/lib.rs:17). A successful outcome (`Handled`) for a non-empty image therefore rests on the assumption below.
- Kernel.Render, Worker.HandleRenderWasm and Worker.OnMessage require a kernel zoom below 64. The source's `zoom` is a full `u32` (fractal-draw/src/lib.rs:23-25). For zooms of 64 and above, `1u64 << zoom` overflows: a debug build panics and a release build masks the shift amount. Neither is modelled.
- Native.RenderWorker and Native.RenderPage take integer zooms only. A fractional zoom, which JavaScript's `2 ** zoom` accepts, is not modelled.
- Pixels.Draw and Pixels.DrawInPlace require an in-range pixel. Neither the worker's `draw` (fractal-web/worker.js:136-146) nor the page's `Canvas.draw` (fractal-web/main.js:97-107) has a bounds check. An out-of-range typed-array write is either ignored or lands on another row; neither is modelled.
- Worker.OnMessage also requires an installed image whose buffer matches its size and whose dimensions fit `u32`.
- An empty slot that is reached makes the handler throw a `TypeError`. This is recorded as `Threw`, with no further detail.
- `renderWasm` on the page (fractal-web/main.js:57-64) and the page's import table (fractal-web/main.js:138-152) are not modelled. That table provides neither `progress` nor `paint`, so the kernel as written cannot be linked against it.
- The model assumes a theme whose `color_pixel` and `max_steps` use the 32-bit integers the kernel's imports declare (fractal-draw/src/lib.rs:13,17).

The model follows the code in these places:

- The progress reported after row `y` is `y / height`, not `(y + 1) / height`. The last value is therefore `(height - 1) / height`, below 1.
- The built-in renderer computes `pixel - width / 2` with real division. The kernel divides integers. For odd dimensions the two offsets therefore differ by half a pixel, even with signed arithmetic (Viewport.SignedOffsetMatchesNative).

## Findings

| source | as written | input that shows it | evidently intended | confidence | as-written member | corrected member |
|---|---|---|---|---|---|---|
| fractal-draw/src/lib.rs:29-30 | `(pixel_x - width/2) as f64` and `(pixel_y - height/2) as f64` subtract in `u32`. Left of and above the centre, the subtraction wraps to about `2^32` in a release build. | 4×4 image, zoom 0, centre 0, pixel (1, 1). The wrapping offset gives `c = (2^32 - 1)(1 + i)`, which escapes after 1 step. The signed offset gives `c = -1 - i`, which escapes after 3 steps. | A signed offset, as in fractal-web/worker.js:159-160. The point is `center + (pixel - dim/2) * distance`, negative on the left and top halves. | not executed | Viewport.WrappingOffset, shown by Kernel.WrappingCounterexample | Viewport.SignedOffset, with Kernel.SignedMatchesNative and Worker.RenderPathsAgree |

The kernel's offset arithmetic is a parameter of the model (`OffsetArith`). The worker's kernel slot holds the build it was given. `SignedI64` is the corrected build, and the agreement with the built-in renderer is proved for it. `WrappingU32` is the build as written, and for it the model proves only the bottom-right agreement and the counterexample.

=== FILE: escape.dfy ===
/** The escape-time iteration shared by the built-in renderer (worker.js,
    main.js) and the render kernel (fractal-draw), over exact reals. */
module Escape {

  datatype Complex = Complex(re: real, im: real)

  const Zero: Complex := Complex(0.0, 0.0)

  /** `|z|^2`, compared against 4.0 instead of comparing `|z|` against 2. */
  function NormSqr(z: Complex): real {
    z.re * z.re + z.im * z.im
  }

  ghost predicate Escaped(z: Complex) {
    NormSqr(z) >= 4.0
  }

  /** One step of the quadratic map `z -> z^2 + c`, written as the
      JavaScript loop body computes it: the new imaginary part uses the old
      real part saved in `old_re`. */
  function Step(z: Complex, c: Complex): Complex {
    Complex(z.re * z.re - z.im * z.im + c.re, 2.0 * z.re * z.im + c.im)
  }

  /** Complex product and sum, as the kernel's `num::Complex` computes them. */
  function Mul(a: Complex, b: Complex): Complex {
    Complex(a.re * b.re - a.im * b.im, a.re * b.im + a.im * b.re)
  }

  function Add(a: Complex, b: Complex): Complex {
    Complex(a.re + b.re, a.im + b.im)
  }

  /** The kernel's `z * z + c` is the same step as the JavaScript update. */
  lemma KernelStepIsStep(z: Complex, c: Complex)
    ensures Add(Mul(z, z), c) == Step(z, c)
  {
  }

  /** `z_n` of the orbit of `c`, starting from `z_0 = 0`. */
  function Orbit(c: Complex, n: nat): Complex {
    if n == 0 then Zero else Step(Orbit(c, n - 1), c)
  }

  /** The reference meaning of a step count `s` under budget `max`: no
      orbit point before `s` has escaped, and either the budget is used up
      or `z_s` has escaped. */
  ghost predicate IsEscapeTime(c: Complex, max: nat, s: nat) {
    && s <= max
    && (forall k :: 0 <= k < s ==> !Escaped(Orbit(c, k)))
    && (s == max || Escaped(Orbit(c, s)))
  }

  /** The loop `while |z|^2 < 4 && steps < max { z := step(z); steps += 1 }`
      run from `z` with `steps` already taken; returns the final `steps`. */
  function CountFrom(z: Complex, c: Complex, steps: nat, max: nat): (r: nat)
    ensures steps <= max ==> steps <= r <= max
    ensures steps > max ==> r == steps
    decreases max - steps
  {
    if NormSqr(z) < 4.0 && steps < max then CountFrom(Step(z, c), c, steps + 1, max) else steps
  }

  /** The escape-time step count of `c` under budget `max`. */
  function Count(c: Complex, max: nat): (s: nat)
    ensures s <= max
  {
    CountFrom(Zero, c, 0, max)
  }

  lemma {:induction false} CountFromIsEscapeTime(c: Complex, max: nat, steps: nat)
    requires steps <= max
    requires forall k :: 0 <= k < steps ==> !Escaped(Orbit(c, k))
    ensures IsEscapeTime(c, max, CountFrom(Orbit(c, steps), c, steps, max))
    decreases max - steps
  {
    if NormSqr(Orbit(c, steps)) < 4.0 && steps < max {
      assert Orbit(c, steps + 1) == Step(Orbit(c, steps), c);
      CountFromIsEscapeTime(c, max, steps + 1);
    }
  }

  /** At most one step count meets the reference meaning. */
  lemma EscapeTimeUnique(c: Complex, max: nat, s: nat, s': nat)
    requires IsEscapeTime(c, max, s) && IsEscapeTime(c, max, s')
    ensures s == s'
  {
  }

  /** The loop computes exactly the first escape, capped by the budget. */
  lemma CountIsEscapeTime(c: Complex, max: nat, s: nat)
    ensures s == Count(c, max) <==> IsEscapeTime(c, max, s)
  {
    CountFromIsEscapeTime(c, max, 0);
    if IsEscapeTime(c, max, s) {
      EscapeTimeUnique(c, max, s, Count(c, max));
    }
  }

  /** Since `z_0 = 0` has not escaped, a non-zero budget always takes a step. */
  lemma CountAtLeastOne(c: Complex, max: nat)
    requires max >= 1
    ensures 1 <= Count(c, max) <= max
  {
    CountIsEscapeTime(c, max, Count(c, max));
    assert !Escaped(Orbit(c, 0));
  }

  lemma {:induction false} OrbitOfZero(n: nat)
    ensures Orbit(Zero, n) == Zero
  {
    if n > 0 {
      OrbitOfZero(n - 1);
    }
  }

  /** The origin never escapes: it uses the whole budget. */
  lemma CountOfZero(max: nat)
    ensures Count(Zero, max) == max
  {
    forall k | 0 <= k < max
      ensures !Escaped(Orbit(Zero, k))
    {
      OrbitOfZero(k);
    }
    CountIsEscapeTime(Zero, max, max);
  }

  /** A point already outside the radius-2 disc escapes after one step:
      `z_1 = c`. */
  lemma CountOfFar(c: Complex, max: nat)
    requires max >= 1 && Escaped(c)
    ensures Count(c, max) == 1
  {
    assert Orbit(c, 1) == c;
    assert !Escaped(Orbit(c, 0));
    CountIsEscapeTime(c, max, 1);
  }

  lemma SameParity(n: nat)
    requires n >= 2
    ensures (n - 2) % 2 == n % 2
  {
  }

  /** `z_1 = c` for every `c`. */
  lemma OrbitOne(c: Complex)
    ensures Orbit(c, 1) == c
  {
    assert Orbit(c, 1) == Step(Zero, c);
  }

  /** `c = -1` comes back to the origin after two steps.
      `c` is a parameter pinned by the precondition, not a literal, so that
      no ground `Orbit` term enters the proof context.  */
  lemma MinusOneReturns(c: Complex)
    requires c == Complex(-1.0, 0.0)
    ensures Orbit(c, 2) == Zero
  {
    OrbitOne(c);
    assert Orbit(c, 2) == Step(c, c);
  }

  /** An orbit that returns to the origin after two steps alternates
      between `0` and `c`. */
  lemma {:induction false} OrbitOfPeriodTwo(c: Complex, n: nat)
    requires Orbit(c, 2) == Zero
    ensures Orbit(c, n) == if n % 2 == 0 then Zero else c
  {
    if n == 1 {
      OrbitOne(c);
    } else if n >= 2 {
      OrbitOfPeriodTwo(c, n - 2);
      OrbitPeriodTwo(c, n - 2);
      SameParity(n);
    }
  }

  /** ... and so repeats with period two. */
  lemma {:induction false} OrbitPeriodTwo(c: Complex, m: nat)
    requires Orbit(c, 2) == Zero
    ensures Orbit(c, m + 2) == Orbit(c, m)
  {
    if m > 0 {
      OrbitPeriodTwo(c, m - 1);
      assert Orbit(c, m + 2) == Step(Orbit(c, m + 1), c);
    }
  }

  /** `c = -1` cycles between `0` and `-1`, so it never escapes and uses
      the whole budget.
      `c` is a parameter pinned by the precondition, not a literal, so that
      no ground `Orbit` term enters the proof context.  */
  lemma CountOfMinusOne(c: Complex, max: nat)
    requires c == Complex(-1.0, 0.0)
    ensures Count(c, max) == max
  {
    MinusOneReturns(c);
    forall k | 0 <= k < max
      ensures !Escaped(Orbit(c, k))
    {
      OrbitOfPeriodTwo(c, k);
    }
    CountIsEscapeTime(c, max, max);
  }

  /** `c = -1 - i` runs `0, -1 - i, -1 + i, -1 - 3i`: the third point has
      left the disc, so any budget of at least 3 stops after 3 steps. */
  lemma CountOfMinusOneMinusI(max: nat)
    requires max >= 3
    ensures Count(Complex(-1.0, -1.0), max) == 3
  {
    var c := Complex(-1.0, -1.0);
    assert CountFrom(Complex(-1.0, -3.0), c, 3, max) == 3;
    assert CountFrom(Complex(-1.0, 1.0), c, 2, max) == 3;
    assert CountFrom(c, c, 1, max) == 3;
    assert CountFrom(Zero, c, 0, max) == 3;
  }

  /** The map and the norm written on separate real and imaginary parts. */
  lemma SplitStep(re: real, im: real, c: Complex)
    ensures Step(Complex(re, im), c) == Complex(re * re - im * im + c.re, 2.0 * re * im + c.im)
    ensures NormSqr(Complex(re, im)) == re * re + im * im
  {
  }

  /** The worker's and the page's loop, with the simultaneous update done
      through `old_re`. */
  method EscapeSteps(c: Complex, maxSteps: nat) returns (steps: nat)
    ensures steps == Count(c, maxSteps)
    ensures IsEscapeTime(c, maxSteps, steps)
  {
    var zRe, zIm := 0.0, 0.0;
    steps := 0;
    while zRe * zRe + zIm * zIm < 4.0 && steps < maxSteps
      invariant steps <= maxSteps
      invariant CountFrom(Complex(zRe, zIm), c, steps, maxSteps) == Count(c, maxSteps)
      decreases maxSteps - steps
    {
      ghost var z := Complex(zRe, zIm);
      SplitStep(zRe, zIm, c);
      var oldRe := zRe;
      zRe := zRe * zRe - zIm * zIm + c.re;
      zIm := 2.0 * oldRe * zIm + c.im;
      steps := steps + 1;
    }
    SplitStep(zRe, zIm, c);
    CountIsEscapeTime(c, maxSteps, steps);
  }

  /** The kernel's `draw_steps` loop over `num::Complex`. */
  method KernelEscapeSteps(c: Complex, maxSteps: nat) returns (steps: nat)
    ensures steps == Count(c, maxSteps)
    ensures IsEscapeTime(c, maxSteps, steps)
  {
    var z := Zero;
    steps := 0;
    while NormSqr(z) < 4.0 && steps < maxSteps
      invariant steps <= maxSteps
      invariant CountFrom(z, c, steps, maxSteps) == Count(c, maxSteps)
      decreases maxSteps - steps
    {
      KernelStepIsStep(z, c);
      z := Add(Mul(z, z), c);
      steps := steps + 1;
    }
    CountIsEscapeTime(c, maxSteps, steps);
  }
}

=== FILE: kernel.dfy ===
/** The WebAssembly escape-time kernel (fractal-draw `render`) driven by the
    worker through its import table (`WasmRender.build_imports`).

    Every call the kernel makes into its host is recorded as a `Call`; the
    host is the worker's installed image and theme together with the
    messages the worker has posted to the page. */
module Kernel {
  import opened Words
  import opened Pixels
  import opened Escape
  import opened Viewport
  import opened Scan
  import opened Protocol
  import Native
  import Theme

  /** One call through the kernel's import table. */
  datatype Call =
    | CanvasWidth
    | CanvasHeight
    | MaxStepsCall
    | ColorPixelCall(steps: nat, re: real, im: real)
    | DrawPixel(x: nat, y: nat, color: u32)
    | Progress(progress: real)
    | Paint

  /** What the imports reach: the installed image and theme, and the
      messages posted to the page so far. */
  datatype Host = Host(image: Image, theme: Theme.Theme, posted: seq<Message>) {
    predicate Ready() {
      Fits(image)
    }
  }

  /** An image the kernel can address: its buffer matches its size, and
      both dimensions fit the `u32` results of `canvas_width` and
      `canvas_height`. */
  predicate Fits(img: Image) {
    img.Valid() && img.width < U32_LIMIT && img.height < U32_LIMIT
  }

  /** The value an import returns to the kernel; the imports without a
      result return 0. */
  function Answer(h: Host, call: Call): u32
    requires h.Ready()
  {
    match call
    case CanvasWidth => h.image.width
    case CanvasHeight => h.image.height
    case MaxStepsCall => Theme.MaxSteps(h.theme)
    case ColorPixelCall(steps, re, im) => Theme.ColorPixel(h.theme, steps, re, im)
    case _ => 0
  }

  /** The effect of an import on the host: `draw_pixel` writes the image,
      `progress` and `paint` post a message, the queries change nothing. */
  function Perform(h: Host, call: Call): (r: Host)
    requires h.Ready()
    requires call.DrawPixel? ==> call.x < h.image.width && call.y < h.image.height
    ensures r.Ready() && r.image.width == h.image.width && r.image.height == h.image.height
  {
    match call
    case DrawPixel(x, y, color) => h.(image := Draw(h.image, x, y, color))
    case Progress(f) => h.(posted := h.posted + [ProgressMsg(f)])
    case Paint => h.(posted := h.posted + [PaintMsg(h.image)])
    case _ => h
  }

  /** The imports only forward: the queries answer from the installed
      image and theme without changing anything; the theme is never
      replaced; only `draw_pixel` touches the image (at the one pixel it
      names); and only `progress` and `paint` post, one message each,
      which carries the progress value or the current image. */
  lemma ImportsForward(h: Host, call: Call, x: nat, y: nat)
    requires h.Ready()
    requires call.DrawPixel? ==> call.x < h.image.width && call.y < h.image.height
    requires x < h.image.width && y < h.image.height
    ensures call.CanvasWidth? ==> Answer(h, call) == h.image.width
    ensures call.CanvasHeight? ==> Answer(h, call) == h.image.height
    ensures call.MaxStepsCall? ==> Answer(h, call) == 256
    ensures call.ColorPixelCall? ==> Answer(h, call) == Theme.ColorPixel(h.theme, call.steps, call.re, call.im)
    ensures call.CanvasWidth? || call.CanvasHeight? || call.MaxStepsCall? || call.ColorPixelCall? ==> Perform(h, call) == h
    ensures Perform(h, call).theme == h.theme
    ensures !call.DrawPixel? ==> Perform(h, call).image == h.image
    ensures call.DrawPixel? ==>
      PixelAt(Perform(h, call).image, x, y)
        == if (x, y) == (call.x, call.y) then Rgba(call.color) else PixelAt(h.image, x, y)
    ensures call.Progress? ==> Perform(h, call).posted == h.posted + [ProgressMsg(call.progress)]
    ensures call.Paint? ==> Perform(h, call).posted == h.posted + [PaintMsg(h.image)]
    ensures !call.Progress? && !call.Paint? ==> Perform(h, call).posted == h.posted
  {
    if call.DrawPixel? {
      DrawPixelAt(h.image, call.x, call.y, call.color, x, y);
    }
  }

  /** The parameters of one kernel pass, as the kernel sees them. */
  datatype Pass = Pass(theme: Theme.Theme, arith: OffsetArith, centerRe: real, centerIm: real,
                       distance: real, width: nat, height: nat)

  /** The point of pixel `(x, y)`. */
  function Point(p: Pass, x: nat, y: nat): Complex {
    KernelPoint(p.arith, p.centerRe, p.centerIm, p.distance, p.width, p.height, x, y)
  }

  /** The escape count `draw_steps` computes for pixel `(x, y)`. */
  function Steps(p: Pass, x: nat, y: nat): nat {
    Count(Point(p, x, y), Theme.MaxSteps(p.theme))
  }

  /** The colour the kernel draws at pixel `(x, y)`. */
  function PixelColorOf(p: Pass, x: nat, y: nat): u32 {
    Native.PointColor(p.theme, Point(p, x, y))
  }

  /** What `draw_steps` computes for one pixel: its point, its escape
      count and the colour it draws.  The call traces below are stated for
      any per-pixel work, and a pass's own work is `PassWork`. */
  datatype Work = Work(c: Complex, steps: nat, color: u32)

  function PassWork(p: Pass): (nat, nat) -> Work {
    (x: nat, y: nat) => Work(Point(p, x, y), Steps(p, x, y), PixelColorOf(p, x, y))
  }

  function Colors(work: (nat, nat) -> Work): (nat, nat) -> u32 {
    (x: nat, y: nat) => work(x, y).color
  }

  /** `draw_steps` for pixel `(x, y)`: read the budget, colour, draw. */
  function PixelCalls(work: (nat, nat) -> Work, x: nat, y: nat): seq<Call> {
    var w := work(x, y);
    [MaxStepsCall, ColorPixelCall(w.steps, w.c.re, w.c.im), DrawPixel(x, y, w.color)]
  }

  /** The calls for pixels `(0, y) .. (n - 1, y)`. */
  function RowCalls(work: (nat, nat) -> Work, y: nat, n: nat): seq<Call> {
    if n == 0 then [] else RowCalls(work, y, n - 1) + PixelCalls(work, n - 1, y)
  }

  /** The calls for rows `0 .. rows - 1`, each followed by `show_progress`. */
  function RowsCalls(work: (nat, nat) -> Work, width: nat, height: nat, rows: nat): seq<Call>
    requires rows <= height
  {
    if rows == 0 then []
    else RowsCalls(work, width, height, rows - 1) + RowCalls(work, rows - 1, width)
         + [Progress((rows - 1) as real / height as real)]
  }

  /** The calls of a whole `render`: the dimensions, the rows, `paint`. */
  function RenderCalls(work: (nat, nat) -> Work, width: nat, height: nat): seq<Call> {
    [CanvasWidth, CanvasHeight] + RowsCalls(work, width, height, height) + [Paint]
  }

  /** The progress messages the worker forwards for the values `fs`. */
  function ProgressMessages(fs: seq<real>): (r: seq<Message>)
    ensures |r| == |fs|
    ensures forall i :: 0 <= i < |fs| ==> r[i] == ProgressMsg(fs[i])
  {
    if fs == [] then [] else [ProgressMsg(fs[0])] + ProgressMessages(fs[1..])
  }

  lemma ProgressMessagesSnoc(fs: seq<real>, f: real)
    ensures ProgressMessages(fs + [f]) == ProgressMessages(fs) + [ProgressMsg(f)]
  {
    assert |ProgressMessages(fs + [f])| == |ProgressMessages(fs) + [ProgressMsg(f)]|;
    forall i | 0 <= i < |fs| + 1
      ensures ProgressMessages(fs + [f])[i] == (ProgressMessages(fs) + [ProgressMsg(f)])[i]
    {
      if i < |fs| {
        assert (fs + [f])[i] == fs[i];
      }
    }
  }

  /** `draw_steps`: the escape loop between the `max_steps` query and the
      `color_pixel` and `draw_pixel` calls. */
  method DrawSteps(h: Host, p: Pass, x: nat, y: nat, c: Complex) returns (h': Host, calls: seq<Call>)
    requires h.Ready() && x < h.image.width && y < h.image.height
    requires h.theme == p.theme && c == Point(p, x, y)
    ensures h' == h.(image := Draw(h.image, x, y, PixelColorOf(p, x, y)))
    ensures calls == PixelCalls(PassWork(p), x, y)
  {
    assert PassWork(p)(x, y) == Work(c, Steps(p, x, y), PixelColorOf(p, x, y));
    calls := [MaxStepsCall];
    var maxSteps := Answer(h, MaxStepsCall);
    var steps := PixelSteps(p, x, y, c, maxSteps);
    var query := ColorPixelCall(steps, c.re, c.im);
    calls := calls + [query];
    var color := Answer(h, query);
    var draw := DrawPixel(x, y, color);
    calls := calls + [draw];
    h' := Perform(h, draw);
  }

  /** The escape loop of `draw_steps` for one pixel of a pass. */
  method PixelSteps(p: Pass, x: nat, y: nat, c: Complex, maxSteps: nat) returns (steps: nat)
    requires c == Point(p, x, y) && maxSteps == Theme.MaxSteps(p.theme)
    ensures steps == Steps(p, x, y)
  {
    steps := KernelEscapeSteps(c, maxSteps);
  }

  /** The inner loop of `render` for row `y`. */
  method DrawRow(h: Host, p: Pass, y: nat) returns (h': Host, calls: seq<Call>)
    requires h.Ready() && y < h.image.height
    requires h.theme == p.theme && p.width == h.image.width && p.height == h.image.height
    requires Painted(h.image, Colors(PassWork(p)), y, 0)
    ensures h'.Ready() && h'.image.width == h.image.width && h'.image.height == h.image.height
    ensures h'.theme == h.theme && h'.posted == h.posted
    ensures Painted(h'.image, Colors(PassWork(p)), y + 1, 0)
    ensures SameFrom(h.image, h'.image, Index(p.width, 0, y + 1))
    ensures calls == RowCalls(PassWork(p), y, p.width)
  {
    ghost var work := PassWork(p);
    ghost var colors := Colors(work);
    h' := h;
    calls := [];
    var pixelX := 0;
    while pixelX < p.width
      invariant pixelX <= p.width
      invariant h'.Ready() && h'.image.width == h.image.width && h'.image.height == h.image.height
      invariant h'.theme == h.theme && h'.posted == h.posted
      invariant Painted(h'.image, colors, y, pixelX)
      invariant SameFrom(h.image, h'.image, Index(p.width, 0, y + 1))
      invariant calls == RowCalls(work, y, pixelX)
    {
      var c := KernelPoint(p.arith, p.centerRe, p.centerIm, p.distance, p.width, p.height, pixelX, y);
      assert colors(pixelX, y) == PixelColorOf(p, pixelX, y);
      PaintedAfterDraw(h'.image, colors, y, pixelX);
      DrawKeepsLaterRows(h'.image, pixelX, y, PixelColorOf(p, pixelX, y));
      SameFromTrans(h.image, h'.image, Draw(h'.image, pixelX, y, PixelColorOf(p, pixelX, y)), Index(p.width, 0, y + 1));
      var more;
      h', more := DrawSteps(h', p, pixelX, y, c);
      calls := calls + more;
      pixelX := pixelX + 1;
    }
    PaintedNextRow(h'.image, colors, y);
  }

  /** The row loop of `render`: each row is drawn, then its progress
      `y / height` is reported. */
  method DrawRows(h: Host, p: Pass) returns (h': Host, calls: seq<Call>)
    requires h.Ready() && h.theme == p.theme && p.width == h.image.width && p.height == h.image.height
    ensures h'.Ready() && h'.image.width == h.image.width && h'.image.height == h.image.height
    ensures h'.theme == h.theme
    ensures Painted(h'.image, Colors(PassWork(p)), p.height, 0)
    ensures h'.posted == h.posted + ProgressMessages(Fractions(p.height, p.height))
    ensures calls == RowsCalls(PassWork(p), p.width, p.height, p.height)
  {
    ghost var work := PassWork(p);
    h' := h;
    calls := [];
    var pixelY := 0;
    while pixelY < p.height
      invariant pixelY <= p.height
      invariant h'.Ready() && h'.image.width == h.image.width && h'.image.height == h.image.height
      invariant h'.theme == h.theme
      invariant Painted(h'.image, Colors(work), pixelY, 0)
      invariant h'.posted == h.posted + ProgressMessages(Fractions(p.height, pixelY))
      invariant calls == RowsCalls(work, p.width, p.height, pixelY)
    {
      var more;
      h', more := DrawRow(h', p, pixelY);
      var f := pixelY as real / p.height as real;
      ghost var drawn := h';
      h' := Perform(h', Progress(f));
      assert h' == drawn.(posted := drawn.posted + [ProgressMsg(f)]);
      assert h'.posted == h.posted + ProgressMessages(Fractions(p.height, pixelY + 1)) by {
        assert Fractions(p.height, pixelY + 1) == Fractions(p.height, pixelY) + [f];
        ProgressMessagesSnoc(Fractions(p.height, pixelY), f);
      }
      assert RowsCalls(work, p.width, p.height, pixelY + 1) == calls + more + [Progress(f)];
      calls := calls + more + [Progress(f)];
      pixelY := pixelY + 1;
    }
  }

  /** `render(center_re, center_im, zoom)` run against the worker's imports:
      every pixel of the installed image gets the kernel's colour, the
      worker posts the progress values `y / height` in row order and then
      the finished image, and the calls follow `RenderCalls`. */
  method Render(host: Host, arith: OffsetArith, centerRe: real, centerIm: real, zoom: nat)
    returns (out: Host, calls: seq<Call>)
    requires host.Ready()
    requires zoom < 64
    ensures var p := Pass(host.theme, arith, centerRe, centerIm, Distance(zoom), host.image.width, host.image.height);
      && calls == RenderCalls(PassWork(p), p.width, p.height)
      && out.Ready() && out.image.width == host.image.width && out.image.height == host.image.height
      && out.theme == host.theme
      && (forall x, y :: 0 <= x < out.image.width && 0 <= y < out.image.height ==>
            PixelAt(out.image, x, y) == Rgba(PixelColorOf(p, x, y)))
      && out.posted == host.posted + ProgressMessages(Fractions(host.image.height, host.image.height))
                       + [PaintMsg(out.image)]
  {
    calls := [CanvasWidth, CanvasHeight];
    var width := Answer(host, CanvasWidth);
    var height := Answer(host, CanvasHeight);
    var distance := 1.0 / (Pow2(zoom) as real);
    assert distance == Distance(zoom);
    var p := Pass(host.theme, arith, centerRe, centerIm, distance, width, height);
    var drawn, rows := DrawRows(host, p);
    out := Perform(drawn, Paint);
    calls := calls + rows + [Paint];
    assert out.image == drawn.image;
    forall x, y | 0 <= x < out.image.width && 0 <= y < out.image.height
      ensures PixelAt(out.image, x, y) == Rgba(PixelColorOf(p, x, y))
    {
      assert Colors(PassWork(p))(x, y) == PixelColorOf(p, x, y);
    }
  }

  /** The page-visible part of a call: pixel writes and progress messages
      in the built-in renderers' terms; queries post nothing, and `paint`
      is treated apart. */
  function Observed(calls: seq<Call>): seq<Native.Event> {
    if calls == [] then []
    else
      (match calls[0]
       case DrawPixel(x, y, color) => [Native.Drew(x, y, color)]
       case Progress(f) => [Native.Posted(ProgressMsg(f))]
       case _ => [])
      + Observed(calls[1..])
  }

  lemma {:induction false} ObservedAppend(a: seq<Call>, b: seq<Call>)
    ensures Observed(a + b) == Observed(a) + Observed(b)
  {
    if a != [] {
      assert (a + b)[1..] == a[1..] + b;
      assert (a + b)[0] == a[0];
      ObservedAppend(a[1..], b);
    } else {
      assert a + b == b;
    }
  }

  /** The two queries before a write are not observed. */
  lemma ObservedDraw(a: Call, b: Call, x: nat, y: nat, color: u32)
    requires a.MaxStepsCall? && b.ColorPixelCall?
    ensures Observed([a, b, DrawPixel(x, y, color)]) == [Native.Drew(x, y, color)]
  {
    var t := [a, b, DrawPixel(x, y, color)];
    assert t[1..] == [b, DrawPixel(x, y, color)];
    assert t[1..][1..] == [DrawPixel(x, y, color)];
    assert t[1..][1..][1..] == [];
    assert Observed(t[1..][1..]) == [Native.Drew(x, y, color)];
    assert Observed(t[1..]) == [Native.Drew(x, y, color)];
  }

  lemma ObservedProgress(f: real)
    ensures Observed([Progress(f)]) == [Native.Posted(ProgressMsg(f))]
  {
    assert [Progress(f)][1..] == [];
  }

  lemma {:induction false} ObservedRow(work: (nat, nat) -> Work, y: nat, n: nat)
    ensures Observed(RowCalls(work, y, n)) == Native.RowDraws(Colors(work), y, n)
  {
    if n > 0 {
      var x := n - 1;
      var w := work(x, y);
      var a := RowCalls(work, y, x);
      var pixel := PixelCalls(work, x, y);
      ObservedRow(work, y, x);
      ObservedDraw(MaxStepsCall, ColorPixelCall(w.steps, w.c.re, w.c.im), x, y, w.color);
      ObservedAppend(a, pixel);
      assert Colors(work)(x, y) == w.color;
    }
  }

  /** Seen from the page, the kernel's rows are the worker's built-in rows
      with the kernel's colours: the same writes in the same order and the
      same progress messages. */
  lemma {:induction false} ObservedRows(work: (nat, nat) -> Work, width: nat, height: nat, rows: nat)
    requires rows <= height
    ensures Observed(RowsCalls(work, width, height, rows)) == Native.Rows(Colors(work), width, height, rows, true)
  {
    if rows > 0 {
      var a := RowsCalls(work, width, height, rows - 1);
      var b := RowCalls(work, rows - 1, width);
      var f := (rows - 1) as real / height as real;
      ObservedRows(work, width, height, rows - 1);
      ObservedRow(work, rows - 1, width);
      ObservedAppend(a, b);
      ObservedAppend(a + b, [Progress(f)]);
      ObservedProgress(f);
    }
  }

  /** Every call of a row is pixel work, and every write is in range. */
  predicate PixelWork(calls: seq<Call>, width: nat, height: nat) {
    forall i :: 0 <= i < |calls| ==>
      && (calls[i].MaxStepsCall? || calls[i].ColorPixelCall? || calls[i].DrawPixel? || calls[i].Progress?)
      && (calls[i].DrawPixel? ==> calls[i].x < width && calls[i].y < height)
  }

  lemma PixelWorkAppend(a: seq<Call>, b: seq<Call>, width: nat, height: nat)
    requires PixelWork(a, width, height) && PixelWork(b, width, height)
    ensures PixelWork(a + b, width, height)
  {
    forall i | 0 <= i < |a + b|
      ensures (a + b)[i] == if i < |a| then a[i] else b[i - |a|]
    {
    }
  }

  lemma {:induction false} RowWork(work: (nat, nat) -> Work, width: nat, height: nat, y: nat, n: nat)
    requires y < height && n <= width
    ensures PixelWork(RowCalls(work, y, n), width, height)
  {
    if n > 0 {
      RowWork(work, width, height, y, n - 1);
      PixelWorkAppend(RowCalls(work, y, n - 1), PixelCalls(work, n - 1, y), width, height);
    }
  }

  lemma {:induction false} RowsWork(work: (nat, nat) -> Work, width: nat, height: nat, rows: nat)
    requires rows <= height
    ensures PixelWork(RowsCalls(work, width, height, rows), width, height)
  {
    if rows > 0 {
      var a := RowsCalls(work, width, height, rows - 1);
      var b := RowCalls(work, rows - 1, width);
      var report := Progress((rows - 1) as real / height as real);
      RowsWork(work, width, height, rows - 1);
      RowWork(work, width, height, rows - 1, width);
      PixelWorkAppend(a, b, width, height);
      PixelWorkAppend(a + b, [report], width, height);
    }
  }

  /** The shape of a kernel pass, whatever each pixel computes: the
      dimensions are read once, first; everything between is pixel work
      with every write inside the image; the writes cover the image once
      each in row-major order; the progress values are
      `0 / height .. (height - 1) / height`; and `paint` comes exactly once,
      last. */
  lemma RenderShape(work: (nat, nat) -> Work, width: nat, height: nat)
    ensures var t := RenderCalls(work, width, height);
      && t[0] == CanvasWidth && t[1] == CanvasHeight && t[|t| - 1] == Paint
      && PixelWork(t[2..|t| - 1], width, height)
      && Native.Positions(Observed(t)) == RowMajor(width, height)
      && Native.Progresses(Observed(t)) == Fractions(height, height)
  {
    var rows := RowsCalls(work, width, height, height);
    var t := RenderCalls(work, width, height);
    assert t[2..|t| - 1] == rows;
    RowsWork(work, width, height, height);
    ObservedAppend([CanvasWidth, CanvasHeight], rows);
    ObservedAppend([CanvasWidth, CanvasHeight] + rows, [Paint]);
    assert Observed([CanvasWidth, CanvasHeight]) == [] by {
      assert [CanvasWidth, CanvasHeight][1..][1..] == [];
    }
    assert Observed([Paint]) == [];
    assert Observed(t) == Observed(rows) by {
      assert t == [CanvasWidth, CanvasHeight] + rows + [Paint];
    }
    ObservedRows(work, width, height, height);
    Native.RowsShape(Colors(work), width, height, height, true);
  }

  /** With the signed subtraction and even dimensions, the kernel colours
      every pixel as the built-in renderers do. */
  lemma SignedMatchesNative(theme: Theme.Theme, view: Native.View, width: nat, height: nat, x: nat, y: nat)
    requires width % 2 == 0 && height % 2 == 0
    ensures PixelColorOf(Pass(theme, SignedI64, view.centerRe, view.centerIm, Distance(view.zoom), width, height), x, y)
            == Native.PixelColor(theme, view, width, height, x, y)
  {
    SignedKernelPointMatchesNative(view.centerRe, view.centerIm, Distance(view.zoom), width, height, x, y);
  }

  /** The wrapping build agrees with the built-in renderers on the
      bottom-right quarter of an even-sized image. */
  lemma WrappingMatchesNativeOnLowerRight(theme: Theme.Theme, view: Native.View, width: nat, height: nat, x: nat, y: nat)
    requires width % 2 == 0 && height % 2 == 0
    requires width < U32_LIMIT && height < U32_LIMIT
    requires width / 2 <= x < width && height / 2 <= y < height
    ensures PixelColorOf(Pass(theme, WrappingU32, view.centerRe, view.centerIm, Distance(view.zoom), width, height), x, y)
            == Native.PixelColor(theme, view, width, height, x, y)
  {
    var distance := Distance(view.zoom);
    var wrapped := Pass(theme, WrappingU32, view.centerRe, view.centerIm, distance, width, height);
    var signed := Pass(theme, SignedI64, view.centerRe, view.centerIm, distance, width, height);
    assert Point(wrapped, x, y) == Point(signed, x, y) by {
      WrappingPointAgreesOnLowerRight(view.centerRe, view.centerIm, distance, width, height, x, y);
    }
    SamePointSameColor(wrapped, signed, x, y);
    SignedMatchesNative(theme, view, width, height, x, y);
  }

  /** Two passes with the same theme colour a pixel alike when they put it
      at the same point. */
  lemma SamePointSameColor(p: Pass, q: Pass, x: nat, y: nat)
    requires p.theme == q.theme && Point(p, x, y) == Point(q, x, y)
    ensures PixelColorOf(p, x, y) == PixelColorOf(q, x, y)
  {
  }

  /** A pixel's colour is the theme's colour for the escape count of its
      point. */
  lemma ColorFromCount(p: Pass, x: nat, y: nat, c: Complex, steps: nat)
    requires Point(p, x, y) == c && Count(c, 256) == steps
    ensures Steps(p, x, y) == steps
    ensures PixelColorOf(p, x, y) == Theme.ColorPixel(p.theme, steps, c.re, c.im)
  {
  }

  /** The wrap-around made visible: in a 4 x 4 image at zoom 0 centred on
      the origin, pixel `(1, 1)` is the point `-1 - i`, which escapes after
      three steps.  The wrapping build puts it at `(2^32 - 1)(1 + i)`
      instead, which escapes after one step, so the pixel gets a different
      colour from the one the built-in renderers and the signed build give
      it.
      The passes are parameters pinned by the preconditions, not literals,
      so that no ground escape count enters the proof context. */
  lemma WrappingCounterexample(wrapped: Pass, signed: Pass)
    requires wrapped == Pass(wrapped.theme, WrappingU32, 0.0, 0.0, 1.0, 4, 4)
    requires signed == wrapped.(arith := SignedI64)
    ensures Point(wrapped, 1, 1) == Complex((U32_LIMIT - 1) as real, (U32_LIMIT - 1) as real)
    ensures Steps(wrapped, 1, 1) == 1
    ensures Point(signed, 1, 1) == Complex(-1.0, -1.0)
    ensures Steps(signed, 1, 1) == 3
    ensures PixelColorOf(signed, 1, 1) == Native.PixelColor(wrapped.theme, Native.View(0.0, 0.0, 0), 4, 4, 1, 1)
    ensures PixelColorOf(wrapped, 1, 1) != PixelColorOf(signed, 1, 1)
  {
    WrappedPixelEscapes(wrapped);
    SignedPixelEscapes(signed);
    var far := (U32_LIMIT - 1) as real;
    Theme.OnlyStepsMatter(wrapped.theme, 1, far, far, 3, -1.0, -1.0);
  }

  /** With the wrapping build, pixel (1, 1) of a 4 by 4 image lands far to
      the right and below, and escapes at the first step.
      The pass is a parameter pinned by the precondition, not literals,
      so that no ground escape count enters the proof context. */
  lemma WrappedPixelEscapes(wrapped: Pass)
    requires wrapped == Pass(wrapped.theme, WrappingU32, 0.0, 0.0, 1.0, 4, 4)
    ensures Point(wrapped, 1, 1) == Complex((U32_LIMIT - 1) as real, (U32_LIMIT - 1) as real)
    ensures Steps(wrapped, 1, 1) == 1
    ensures PixelColorOf(wrapped, 1, 1) == Theme.ColorPixel(wrapped.theme, 1, (U32_LIMIT - 1) as real, (U32_LIMIT - 1) as real)
  {
    var far := Complex((U32_LIMIT - 1) as real, (U32_LIMIT - 1) as real);
    assert Point(wrapped, 1, 1) == far by {
      assert WrappingOffset(1, 4) == (U32_LIMIT - 1) as real;
    }
    assert Count(far, 256) == 1 by {
      FarEscapes(far);
      CountOfFar(far, 256);
    }
    ColorFromCount(wrapped, 1, 1, far, 1);
  }

  /** With the signed build the same pixel is `-1 - i`, as in the built-in
      renderers, and it escapes after three steps.
      The pass is a parameter pinned by the precondition, not literals,
      so that no ground escape count enters the proof context. */
  lemma SignedPixelEscapes(signed: Pass)
    requires signed == Pass(signed.theme, SignedI64, 0.0, 0.0, 1.0, 4, 4)
    ensures Point(signed, 1, 1) == Complex(-1.0, -1.0)
    ensures Steps(signed, 1, 1) == 3
    ensures PixelColorOf(signed, 1, 1) == Theme.ColorPixel(signed.theme, 3, -1.0, -1.0)
    ensures PixelColorOf(signed, 1, 1) == Native.PixelColor(signed.theme, Native.View(0.0, 0.0, 0), 4, 4, 1, 1)
  {
    var c := Complex(-1.0, -1.0);
    assert Point(signed, 1, 1) == c;
    CountOfMinusOneMinusI(256);
    ColorFromCount(signed, 1, 1, c, 3);
    NativePixelOfCounterexample(signed.theme);
  }

  /** The built-in renderers put pixel (1, 1) of a 4 by 4 image at zoom 0
      centred on the origin at `-1 - i`. */
  lemma NativePixelOfCounterexample(theme: Theme.Theme)
    ensures Native.PixelColor(theme, Native.View(0.0, 0.0, 0), 4, 4, 1, 1)
         == Native.PointColor(theme, Complex(-1.0, -1.0))
  {
    assert Distance(0) == 1.0 by {
      DistanceHalves(0);
    }
    assert NativePoint(0.0, 0.0, Distance(0), 4, 4, 1, 1) == Complex(-1.0, -1.0);
  }

  /** A point at least 2 to the right of the origin lies outside the disc. */
  lemma FarEscapes(far: Complex)
    requires far.re >= 2.0
    ensures Escaped(far)
  {
    var r := far.re;
    assert r * r >= 2.0 * r;
    assert far.im * far.im >= 0.0;
  }
}

=== FILE: native.dfy ===
/** The built-in escape-time renderer: `render_native` in the worker and
    `renderNative` on the page. */
module Native {
  import opened Words
  import opened Pixels
  import opened Escape
  import opened Viewport
  import opened Scan
  import opened Protocol
  import Theme

  /** A render request: the centre of the view and the zoom level. */
  datatype View = View(centerRe: real, centerIm: real, zoom: int)

  /** What a built-in pass does that can be observed, in order: a pixel
      write, a message posted to the page, or the page's `refresh`. */
  datatype Event =
    | Drew(x: nat, y: nat, color: u32)
    | Posted(msg: Message)
    | Refresh

  /** The colour both built-in passes give pixel `(x, y)`: the theme's colour
      for the escape count of the pixel's point under the theme's budget. */
  function PixelColor(theme: Theme.Theme, view: View, width: nat, height: nat, x: nat, y: nat): u32 {
    PointColor(theme, NativePoint(view.centerRe, view.centerIm, Distance(view.zoom), width, height, x, y))
  }

  /** The colour of the point `c`, whichever renderer computed it. */
  function PointColor(theme: Theme.Theme, c: Complex): u32 {
    Theme.ColorPixel(theme, Count(c, Theme.MaxSteps(theme)), c.re, c.im)
  }

  /** The colour of every pixel of one pass. */
  function PixelColors(theme: Theme.Theme, view: View, width: nat, height: nat): (nat, nat) -> u32 {
    (x: nat, y: nat) => PixelColor(theme, view, width, height, x, y)
  }

  /** The writes of pixels `(0, y) .. (n - 1, y)`. */
  function RowDraws(colors: (nat, nat) -> u32, y: nat, n: nat): seq<Event> {
    if n == 0 then [] else RowDraws(colors, y, n - 1) + [Drew(n - 1, y, colors(n - 1, y))]
  }

  /** The events a row adds after its writes: its progress message, when the
      pass reports progress. */
  function RowEnd(height: nat, y: nat, progress: bool): seq<Event>
    requires y < height
  {
    if progress then [Posted(ProgressMsg(y as real / height as real))] else []
  }

  /** The events of rows `0 .. rows - 1` of a `width`-wide pass. */
  function Rows(colors: (nat, nat) -> u32, width: nat, height: nat, rows: nat, progress: bool): seq<Event>
    requires rows <= height
  {
    if rows == 0 then []
    else Rows(colors, width, height, rows - 1, progress) + RowDraws(colors, rows - 1, width) + RowEnd(height, rows - 1, progress)
  }

  /** The pixels written by a trace, in order. */
  function Positions(t: seq<Event>): seq<Pos> {
    if t == [] then []
    else (if t[0].Drew? then [(t[0].x, t[0].y)] else []) + Positions(t[1..])
  }

  /** The progress values posted by a trace, in order. */
  function Progresses(t: seq<Event>): seq<real> {
    if t == [] then []
    else (if t[0].Posted? && t[0].msg.ProgressMsg? then [t[0].msg.progress] else []) + Progresses(t[1..])
  }

  /** The trace posts no finished image and does not refresh. */
  predicate Unfinished(t: seq<Event>) {
    forall i :: 0 <= i < |t| ==> !t[i].Refresh? && !(t[i].Posted? && t[i].msg.PaintMsg?)
  }

  lemma {:induction false} PositionsAppend(a: seq<Event>, b: seq<Event>)
    ensures Positions(a + b) == Positions(a) + Positions(b)
  {
    if a != [] {
      assert (a + b)[1..] == a[1..] + b;
      assert (a + b)[0] == a[0];
      PositionsAppend(a[1..], b);
    } else {
      assert a + b == b;
    }
  }

  lemma {:induction false} ProgressesAppend(a: seq<Event>, b: seq<Event>)
    ensures Progresses(a + b) == Progresses(a) + Progresses(b)
  {
    if a != [] {
      assert (a + b)[1..] == a[1..] + b;
      assert (a + b)[0] == a[0];
      ProgressesAppend(a[1..], b);
    } else {
      assert a + b == b;
    }
  }

  lemma PositionsOfAppend(a: seq<Event>, b: seq<Event>, pa: seq<Pos>, pb: seq<Pos>)
    requires Positions(a) == pa && Positions(b) == pb
    ensures Positions(a + b) == pa + pb
  {
    PositionsAppend(a, b);
  }

  lemma ProgressesOfAppend(a: seq<Event>, b: seq<Event>, pa: seq<real>, pb: seq<real>)
    requires Progresses(a) == pa && Progresses(b) == pb
    ensures Progresses(a + b) == pa + pb
  {
    ProgressesAppend(a, b);
  }

  lemma UnfinishedAppend(a: seq<Event>, b: seq<Event>)
    requires Unfinished(a) && Unfinished(b)
    ensures Unfinished(a + b)
  {
    forall i | 0 <= i < |a + b|
      ensures !(a + b)[i].Refresh? && !((a + b)[i].Posted? && (a + b)[i].msg.PaintMsg?)
    {
      if i < |a| {
        assert (a + b)[i] == a[i];
      } else {
        assert (a + b)[i] == b[i - |a|];
      }
    }
  }

  lemma {:induction false} RowDrawsShape(colors: (nat, nat) -> u32, y: nat, n: nat)
    ensures Positions(RowDraws(colors, y, n)) == RowPositions(y, n)
    ensures Progresses(RowDraws(colors, y, n)) == []
    ensures Unfinished(RowDraws(colors, y, n))
  {
    if n > 0 {
      var e := Drew(n - 1, y, colors(n - 1, y));
      RowDrawsShape(colors, y, n - 1);
      PositionsAppend(RowDraws(colors, y, n - 1), [e]);
      ProgressesAppend(RowDraws(colors, y, n - 1), [e]);
      UnfinishedAppend(RowDraws(colors, y, n - 1), [e]);
    }
  }

  /** The rows of a pass write the pixels in row-major order, post the
      progress values `0 / height .. (rows - 1) / height` when the pass
      reports progress and none otherwise, and never paint or refresh. */
  lemma RowsShape(colors: (nat, nat) -> u32, width: nat, height: nat, rows: nat, progress: bool)
    requires rows <= height
    ensures Positions(Rows(colors, width, height, rows, progress)) == RowMajor(width, rows)
    ensures Progresses(Rows(colors, width, height, rows, progress)) == if progress then Fractions(height, rows) else []
    ensures Unfinished(Rows(colors, width, height, rows, progress))
  {
    RowsPositions(colors, width, height, rows, progress);
    RowsProgresses(colors, width, height, rows, progress);
    RowsUnfinished(colors, width, height, rows, progress);
  }

  lemma {:induction false} RowsPositions(colors: (nat, nat) -> u32, width: nat, height: nat, rows: nat, progress: bool)
    requires rows <= height
    ensures Positions(Rows(colors, width, height, rows, progress)) == RowMajor(width, rows)
  {
    if rows > 0 {
      var a := Rows(colors, width, height, rows - 1, progress);
      var b := RowDraws(colors, rows - 1, width);
      var c := RowEnd(height, rows - 1, progress);
      var pa, pb := RowMajor(width, rows - 1), RowPositions(rows - 1, width);
      RowsPositions(colors, width, height, rows - 1, progress);
      RowDrawsShape(colors, rows - 1, width);
      PositionsOfAppend(a, b, pa, pb);
      assert Positions(c) == [] by {
        if progress {
          assert c[1..] == [];
        }
      }
      PositionsOfAppend(a + b, c, pa + pb, []);
      assert pa + pb + [] == RowMajor(width, rows);
    }
  }

  lemma {:induction false} RowsProgresses(colors: (nat, nat) -> u32, width: nat, height: nat, rows: nat, progress: bool)
    requires rows <= height
    ensures Progresses(Rows(colors, width, height, rows, progress)) == if progress then Fractions(height, rows) else []
  {
    if rows > 0 {
      var a := Rows(colors, width, height, rows - 1, progress);
      var b := RowDraws(colors, rows - 1, width);
      var c := RowEnd(height, rows - 1, progress);
      RowsProgresses(colors, width, height, rows - 1, progress);
      assert Progresses(b) == [] by {
        RowDrawsShape(colors, rows - 1, width);
      }
      RowEndProgresses(height, rows - 1, progress);
      if progress {
        ProgressesOfThree(a, b, c, Fractions(height, rows - 1), [(rows - 1) as real / height as real]);
      } else {
        ProgressesOfThree(a, b, c, [], []);
      }
    }
  }

  lemma ProgressesOfThree(a: seq<Event>, b: seq<Event>, c: seq<Event>, before: seq<real>, after: seq<real>)
    requires Progresses(a) == before && Progresses(b) == [] && Progresses(c) == after
    ensures Progresses(a + b + c) == before + after
  {
    ProgressesOfAppend(a, b, before, []);
    assert before + [] == before;
    ProgressesOfAppend(a + b, c, before, after);
  }

  lemma RowEndProgresses(height: nat, y: nat, progress: bool)
    requires y < height
    ensures Progresses(RowEnd(height, y, progress)) == if progress then [y as real / height as real] else []
  {
    if progress {
      assert RowEnd(height, y, progress)[1..] == [];
    }
  }

  lemma {:induction false} RowsUnfinished(colors: (nat, nat) -> u32, width: nat, height: nat, rows: nat, progress: bool)
    requires rows <= height
    ensures Unfinished(Rows(colors, width, height, rows, progress))
  {
    if rows > 0 {
      var a := Rows(colors, width, height, rows - 1, progress);
      var b := RowDraws(colors, rows - 1, width);
      var c := RowEnd(height, rows - 1, progress);
      RowsUnfinished(colors, width, height, rows - 1, progress);
      RowDrawsShape(colors, rows - 1, width);
      assert Unfinished(c) by {
        if progress {
          assert c == [Posted(ProgressMsg((rows - 1) as real / height as real))];
        }
      }
      UnfinishedAppend(a, b);
      UnfinishedAppend(a + b, c);
    }
  }

  /** The body of the pixel loop: the point of the pixel, its escape loop,
      and the theme's colour for the count. */
  method RenderPixel(theme: Theme.Theme, view: View, width: nat, height: nat, x: nat, y: nat,
                     distance: real, maxSteps: nat) returns (color: u32)
    requires distance == Distance(view.zoom) && maxSteps == Theme.MaxSteps(theme)
    ensures color == PixelColor(theme, view, width, height, x, y)
  {
    var c := NativePoint(view.centerRe, view.centerIm, distance, width, height, x, y);
    var steps := EscapeSteps(c, maxSteps);
    color := Theme.ColorPixel(theme, steps, c.re, c.im);
  }

  /** The inner loop shared by both built-in passes: row `y` is written left
      to right, each pixel with its colour.  `distance` and `maxSteps` are
      read once per pass, before the loops. */
  method RenderRow(img: Image, theme: Theme.Theme, view: View, y: nat, distance: real, maxSteps: nat)
    returns (out: Image, draws: seq<Event>)
    requires img.Valid() && y < img.height
    requires distance == Distance(view.zoom) && maxSteps == Theme.MaxSteps(theme)
    requires Painted(img, PixelColors(theme, view, img.width, img.height), y, 0)
    ensures out.Valid() && out.width == img.width && out.height == img.height
    ensures Painted(out, PixelColors(theme, view, img.width, img.height), y + 1, 0)
    ensures SameFrom(img, out, Index(img.width, 0, y + 1))
    ensures draws == RowDraws(PixelColors(theme, view, img.width, img.height), y, img.width)
  {
    var width, height := img.width, img.height;
    ghost var colors := PixelColors(theme, view, width, height);
    out := img;
    draws := [];
    var pixelX := 0;
    while pixelX < width
      invariant pixelX <= width
      invariant out.Valid() && out.width == width && out.height == height
      invariant Painted(out, colors, y, pixelX)
      invariant SameFrom(img, out, Index(width, 0, y + 1))
      invariant draws == RowDraws(colors, y, pixelX)
    {
      var color := RenderPixel(theme, view, width, height, pixelX, y, distance, maxSteps);
      assert color == colors(pixelX, y);
      PaintedAfterDraw(out, colors, y, pixelX);
      DrawKeepsLaterRows(out, pixelX, y, color);
      SameFromTrans(img, out, Draw(out, pixelX, y, color), Index(width, 0, y + 1));
      out := Draw(out, pixelX, y, color);
      draws := draws + [Drew(pixelX, y, color)];
      pixelX := pixelX + 1;
    }
    PaintedNextRow(out, colors, y);
  }

  /** `render_native`: every pixel gets its colour, the writes go in
      row-major order, one progress message `y / height` follows each row,
      and the finished buffer is painted once, last. */
  method RenderWorker(img: Image, theme: Theme.Theme, view: View) returns (out: Image, trace: seq<Event>)
    requires img.Valid()
    ensures out.Valid() && out.width == img.width && out.height == img.height
    ensures forall x, y :: 0 <= x < out.width && 0 <= y < out.height ==>
      PixelAt(out, x, y) == Rgba(PixelColor(theme, view, out.width, out.height, x, y))
    ensures trace == Rows(PixelColors(theme, view, img.width, img.height), img.width, img.height, img.height, true)
                     + [Posted(PaintMsg(out))]
  {
    var width := img.width;
    var height := img.height;
    var distance := Distance(view.zoom);
    var maxSteps := Theme.MaxSteps(theme);
    ghost var colors := PixelColors(theme, view, width, height);
    out := img;
    trace := [];
    var pixelY := 0;
    while pixelY < height
      invariant pixelY <= height
      invariant out.Valid() && out.width == width && out.height == height
      invariant Painted(out, colors, pixelY, 0)
      invariant trace == Rows(colors, width, height, pixelY, true)
    {
      var draws;
      out, draws := RenderRow(out, theme, view, pixelY, distance, maxSteps);
      trace := trace + draws + [Posted(ProgressMsg(pixelY as real / height as real))];
      pixelY := pixelY + 1;
    }
    trace := trace + [Posted(PaintMsg(out))];
  }

  /** `renderNative` on the page: the same pixels in the same order, no
      progress, and one `refresh` after the last write. */
  method RenderPage(img: Image, theme: Theme.Theme, view: View) returns (out: Image, trace: seq<Event>)
    requires img.Valid()
    ensures out.Valid() && out.width == img.width && out.height == img.height
    ensures forall x, y :: 0 <= x < out.width && 0 <= y < out.height ==>
      PixelAt(out, x, y) == Rgba(PixelColor(theme, view, out.width, out.height, x, y))
    ensures trace == Rows(PixelColors(theme, view, img.width, img.height), img.width, img.height, img.height, false)
                     + [Refresh]
  {
    var width := img.width;
    var height := img.height;
    var distance := Distance(view.zoom);
    var maxSteps := Theme.MaxSteps(theme);
    ghost var colors := PixelColors(theme, view, width, height);
    out := img;
    trace := [];
    var pixelY := 0;
    while pixelY < height
      invariant pixelY <= height
      invariant out.Valid() && out.width == width && out.height == height
      invariant Painted(out, colors, pixelY, 0)
      invariant trace == Rows(colors, width, height, pixelY, false)
    {
      var draws;
      out, draws := RenderRow(out, theme, view, pixelY, distance, maxSteps);
      trace := trace + draws;
      pixelY := pixelY + 1;
    }
    trace := trace + [Refresh];
  }

  /** The worker's pass as a whole: each pixel written exactly once in
      row-major order, `height` progress values `y / height`, and exactly
      one paint, as the last event. */
  lemma WorkerTraceShape(colors: (nat, nat) -> u32, width: nat, height: nat, out: Image)
    ensures var t := Rows(colors, width, height, height, true) + [Posted(PaintMsg(out))];
      && Positions(t) == RowMajor(width, height)
      && Progresses(t) == Fractions(height, height)
      && t[|t| - 1] == Posted(PaintMsg(out))
      && Unfinished(t[..|t| - 1])
  {
    var rows := Rows(colors, width, height, height, true);
    var t := rows + [Posted(PaintMsg(out))];
    RowsShape(colors, width, height, height, true);
    PositionsAppend(rows, [Posted(PaintMsg(out))]);
    ProgressesAppend(rows, [Posted(PaintMsg(out))]);
    assert t[..|t| - 1] == rows;
  }

  /** The page's pass: the same writes, no progress, one refresh, last. */
  lemma PageTraceShape(colors: (nat, nat) -> u32, width: nat, height: nat)
    ensures var t := Rows(colors, width, height, height, false) + [Refresh];
      && Positions(t) == RowMajor(width, height)
      && Progresses(t) == []
      && t[|t| - 1] == Refresh
      && Unfinished(t[..|t| - 1])
  {
    var rows := Rows(colors, width, height, height, false);
    var t := rows + [Refresh];
    RowsShape(colors, width, height, height, false);
    PositionsAppend(rows, [Refresh]);
    ProgressesAppend(rows, [Refresh]);
    assert t[..|t| - 1] == rows;
  }

  /** Both built-in passes, and any repeat of either, leave the same buffer:
      a pass's result is determined by its input size, theme and view. */
  lemma PassDeterministic(theme: Theme.Theme, view: View, a: Image, b: Image)
    requires a.Valid() && b.Valid() && a.width == b.width && a.height == b.height
    requires forall x, y :: 0 <= x < a.width && 0 <= y < a.height ==>
      PixelAt(a, x, y) == Rgba(PixelColor(theme, view, a.width, a.height, x, y))
    requires forall x, y :: 0 <= x < b.width && 0 <= y < b.height ==>
      PixelAt(b, x, y) == Rgba(PixelColor(theme, view, b.width, b.height, x, y))
    ensures a == b
  {
    PixelsDetermineImage(a, b);
  }
}

=== FILE: pixels.dfy ===
/** The RGBA pixel buffer the renderers write into: `Image` in the worker
    and `Canvas` on the page, both wrapping an `ImageData`. */
module Pixels {
  import opened Words
  import Theme

  /** Row-major RGBA bytes, four per pixel. */
  datatype Image = Image(width: nat, height: nat, data: seq<byte>) {
    predicate Valid() {
      |data| == width * height * 4
    }
  }

  /** Byte offset of pixel `(x, y)`. */
  function Index(width: nat, x: nat, y: nat): nat {
    (width * y + x) * 4
  }

  /** The channels `draw` reads out of a colour word: `color & 0xFF`,
      `(color >> 8) & 0xFF` and `(color >> 16) & 0xFF`.  Bits 24-31 are
      dropped. */
  function Unpack(color: u32): (c: Theme.Color)
    ensures Theme.Pack(c) == color % 0x100_0000
  {
    SplitBytes(color);
    Theme.Color(color % 0x100, (color / 0x100) % 0x100, (color / 0x1_0000) % 0x100)
  }

  /** The low three bytes of `w` make up its remainder modulo `2^24`. */
  lemma SplitBytes(w: nat)
    ensures w % 0x100 + 0x100 * ((w / 0x100) % 0x100) + 0x1_0000 * ((w / 0x1_0000) % 0x100)
         == w % 0x100_0000
  {
    var q1, q2, q3 := w / 0x100, w / 0x1_0000, w / 0x100_0000;
    assert w == 0x100 * q1 + w % 0x100;
    assert q1 / 0x100 == q2;
    assert q1 == 0x100 * q2 + q1 % 0x100;
    assert q2 / 0x100 == q3;
    assert q2 == 0x100 * q3 + q2 % 0x100;
    assert w == 0x100_0000 * q3 + (0x1_0000 * (q2 % 0x100) + 0x100 * (q1 % 0x100) + w % 0x100);
  }

  /** The four bytes `draw` stores for a colour; alpha is always opaque. */
  function Rgba(color: u32): seq<byte> {
    var c := Unpack(color);
    [c.red, c.green, c.blue, 0xFF]
  }

  /** The four bytes of pixel `(x, y)`. */
  function PixelAt(img: Image, x: nat, y: nat): seq<byte>
    requires img.Valid() && x < img.width && y < img.height
  {
    IndexInRange(img.width, img.height, x, y);
    var i := Index(img.width, x, y);
    img.data[i..i + 4]
  }

  /** An in-range pixel's four bytes lie inside the buffer. */
  lemma IndexInRange(width: nat, height: nat, x: nat, y: nat)
    requires x < width && y < height
    ensures Index(width, x, y) + 4 <= width * height * 4
  {
    assert width * y + x < width * (y + 1) by {
      assert width * (y + 1) == width * y + width;
    }
    MulMonotone(width, y + 1, height);
  }

  lemma MulMonotone(a: nat, b: nat, c: nat)
    requires b <= c
    ensures a * b <= a * c
  {
    assert a * c == a * b + a * (c - b);
  }

  /** Distinct in-range pixels own disjoint four-byte ranges. */
  lemma IndexDisjoint(width: nat, x: nat, y: nat, x': nat, y': nat)
    requires x < width && x' < width && (x, y) != (x', y')
    ensures Index(width, x, y) + 4 <= Index(width, x', y') || Index(width, x', y') + 4 <= Index(width, x, y)
  {
    if y < y' {
      MulMonotone(width, y + 1, y');
      assert width * (y + 1) == width * y + width;
    } else if y' < y {
      MulMonotone(width, y' + 1, y);
      assert width * (y' + 1) == width * y' + width;
    }
  }

  /** `Image.draw` / `Canvas.draw`: writes the colour's red, green and blue
      bytes and an opaque alpha at the pixel's offset.  The source does no
      bounds check, so the pixel must be inside the buffer. */
  function Draw(img: Image, x: nat, y: nat, color: u32): (r: Image)
    requires img.Valid() && x < img.width && y < img.height
    ensures r.Valid() && r.width == img.width && r.height == img.height
    ensures var i := Index(img.width, x, y);
      && i + 3 < |r.data|
      && r.data[i] == color % 0x100
      && r.data[i + 1] == (color / 0x100) % 0x100
      && r.data[i + 2] == (color / 0x1_0000) % 0x100
      && r.data[i + 3] == 0xFF
    ensures forall j :: 0 <= j < |r.data| && !(Index(img.width, x, y) <= j < Index(img.width, x, y) + 4) ==>
      r.data[j] == img.data[j]
  {
    IndexInRange(img.width, img.height, x, y);
    var i := Index(img.width, x, y);
    var c := Unpack(color);
    img.(data := img.data[i := c.red][i + 1 := c.green][i + 2 := c.blue][i + 3 := 0xFF])
  }

  /** The same write on the page's mutable `ImageData` array. */
  method DrawInPlace(data: array<byte>, width: nat, height: nat, x: nat, y: nat, color: u32)
    requires data.Length == width * height * 4 && x < width && y < height
    modifies data
    ensures data[..] == Draw(Image(width, height, old(data[..])), x, y, color).data
  {
    IndexInRange(width, height, x, y);
    var c := Unpack(color);
    var index := (width * y + x) * 4;
    data[index + 0] := c.red;
    data[index + 1] := c.green;
    data[index + 2] := c.blue;
    data[index + 3] := 0xFF;
  }

  /** A drawn pixel reads back as the colour's RGBA bytes; every other pixel
      reads back as before. */
  lemma DrawPixelAt(img: Image, x: nat, y: nat, color: u32, x': nat, y': nat)
    requires img.Valid() && x < img.width && y < img.height
    requires x' < img.width && y' < img.height
    ensures PixelAt(Draw(img, x, y, color), x', y') ==
      if (x', y') == (x, y) then Rgba(color) else PixelAt(img, x', y')
  {
    var r := Draw(img, x, y, color);
    IndexInRange(img.width, img.height, x', y');
    if (x', y') != (x, y) {
      IndexDisjoint(img.width, x, y, x', y');
    }
  }

  /** Bits 24-31 of the colour never reach the buffer. */
  lemma HighByteIgnored(img: Image, x: nat, y: nat, color: u32)
    requires img.Valid() && x < img.width && y < img.height
    ensures Draw(img, x, y, color) == Draw(img, x, y, color % 0x100_0000)
  {
    UnpackHighByte(color);
  }

  /** Unpacking ignores bits 24-31. */
  lemma UnpackHighByte(color: u32)
    ensures Unpack(color) == Unpack(color % 0x100_0000)
  {
    var c, c' := Unpack(color), Unpack(color % 0x100_0000);
    assert Theme.Pack(c) == color % 0x100_0000;
    var low := color % 0x100_0000;
    SmallMod(low, 0x100_0000);
    assert Theme.Pack(c') == color % 0x100_0000;
    Theme.PackInjective(c, c');
  }

  /** Unpacking with the draw masks inverts the theme's packing. */
  lemma UnpackPack(c: Theme.Color)
    ensures Unpack(Theme.Pack(c)) == c
  {
    var w := Theme.Pack(c);
    SmallMod(w, 0x100_0000);
    assert Theme.Pack(Unpack(w)) == w;
    Theme.PackInjective(Unpack(w), c);
  }

  /** Round trip across the theme boundary: drawing a packed colour stores
      exactly its red, green and blue channels. */
  lemma DrawPacked(img: Image, x: nat, y: nat, c: Theme.Color)
    requires img.Valid() && x < img.width && y < img.height
    ensures PixelAt(Draw(img, x, y, Theme.Pack(c)), x, y) == [c.red, c.green, c.blue, 0xFF]
  {
    DrawPixelAt(img, x, y, Theme.Pack(c), x, y);
    UnpackPack(c);
  }

  /** The pixels determine the buffer: two valid images of the same size
      whose pixels all agree are equal. */
  lemma PixelsDetermineImage(a: Image, b: Image)
    requires a.Valid() && b.Valid() && a.width == b.width && a.height == b.height
    requires forall x, y :: 0 <= x < a.width && 0 <= y < a.height ==> PixelAt(a, x, y) == PixelAt(b, x, y)
    ensures a == b
  {
    forall j | 0 <= j < |a.data|
      ensures a.data[j] == b.data[j]
    {
      var x, y := PixelOf(a.width, a.height, j);
      var i := Index(a.width, x, y);
      assert PixelAt(a, x, y) == PixelAt(b, x, y);
      assert PixelAt(a, x, y)[j - i] == a.data[j];
      assert PixelAt(b, x, y)[j - i] == b.data[j];
    }
  }

  /** Every byte of a buffer belongs to some in-range pixel. */
  lemma PixelOf(width: nat, height: nat, j: nat) returns (x: nat, y: nat)
    requires j < width * height * 4
    ensures x < width && y < height
    ensures Index(width, x, y) <= j < Index(width, x, y) + 4
  {
    var p := j / 4;
    assert p < width * height;
    x, y := p % width, p / width;
    assert width * y + x == p;
    if y >= height {
      MulMonotone(width, height, y);
    }
  }

  /** Pixels before `(x, y)` in row-major order hold the colours `colors`
      gives them. */
  ghost predicate Painted(img: Image, colors: (nat, nat) -> u32, y: nat, x: nat)
    requires img.Valid()
  {
    forall yy, xx :: 0 <= yy < img.height && 0 <= xx < img.width && (yy < y || (yy == y && xx < x)) ==>
      PixelAt(img, xx, yy) == Rgba(colors(xx, yy))
  }

  /** Drawing the next pixel in row-major order with its colour extends
      the painted prefix by one. */
  lemma PaintedAfterDraw(img: Image, colors: (nat, nat) -> u32, y: nat, x: nat)
    requires img.Valid() && x < img.width && y < img.height
    requires Painted(img, colors, y, x)
    ensures Painted(Draw(img, x, y, colors(x, y)), colors, y, x + 1)
  {
    forall yy, xx | 0 <= yy < img.height && 0 <= xx < img.width && (yy < y || (yy == y && xx < x + 1))
      ensures PixelAt(Draw(img, x, y, colors(x, y)), xx, yy) == Rgba(colors(xx, yy))
    {
      DrawPixelAt(img, x, y, colors(x, y), xx, yy);
    }
  }

  /** `b` holds the same bytes as `a` from offset `from` to the end. */
  predicate SameFrom(a: Image, b: Image, from: nat) {
    |b.data| == |a.data| && forall i :: from <= i < |a.data| ==> b.data[i] == a.data[i]
  }

  lemma SameFromTrans(a: Image, b: Image, c: Image, from: nat)
    requires SameFrom(a, b, from) && SameFrom(b, c, from)
    ensures SameFrom(a, c, from)
  {
  }

  /** Drawing a pixel of row `y` leaves every byte of the later rows alone. */
  lemma DrawKeepsLaterRows(img: Image, x: nat, y: nat, color: u32)
    requires img.Valid() && x < img.width && y < img.height
    ensures SameFrom(img, Draw(img, x, y, color), Index(img.width, 0, y + 1))
  {
    assert Index(img.width, x, y) + 4 <= Index(img.width, 0, y + 1) by {
      assert img.width * (y + 1) == img.width * y + img.width;
    }
  }

  lemma PaintedNextRow(img: Image, colors: (nat, nat) -> u32, y: nat)
    requires img.Valid() && Painted(img, colors, y, img.width)
    ensures Painted(img, colors, y + 1, 0)
  {
  }
}

=== FILE: protocol.dfy ===
/** Messages the worker posts back to the page. */
module Protocol {
  import Pixels

  datatype Message =
    | ProgressMsg(progress: real)
    | PaintMsg(image: Pixels.Image)
}

=== FILE: scan.dfy ===
/** The order in which both renderers visit pixels, and the progress values
    they report: an outer loop over rows `y`, an inner loop over columns `x`,
    and `y / height` after each row. */
module Scan {

  type Pos = (nat, nat)

  /** `(0, y), (1, y), ..., (n - 1, y)` */
  function RowPositions(y: nat, n: nat): (s: seq<Pos>)
    ensures |s| == n
    ensures forall i :: 0 <= i < n ==> s[i] == (i, y)
  {
    if n == 0 then [] else RowPositions(y, n - 1) + [(n - 1, y)]
  }

  /** The pixels of rows `0 .. rows - 1`, row after row, left to right. */
  function RowMajor(width: nat, rows: nat): (s: seq<Pos>)
  {
    if rows == 0 then [] else RowMajor(width, rows - 1) + RowPositions(rows - 1, width)
  }

  /** `a` comes strictly before `b` in row-major order. */
  predicate Before(a: Pos, b: Pos) {
    a.1 < b.1 || (a.1 == b.1 && a.0 < b.0)
  }

  predicate StrictlyRowMajor(s: seq<Pos>) {
    forall i, j :: 0 <= i < j < |s| ==> Before(s[i], s[j])
  }

  /** The scan visits `width * rows` pixels, strictly in row-major order,
      and a position occurs in it exactly when it lies in the first `rows`
      rows of a `width`-wide image. */
  lemma RowMajorScan(width: nat, rows: nat)
    ensures |RowMajor(width, rows)| == width * rows
    ensures StrictlyRowMajor(RowMajor(width, rows))
    ensures forall p: Pos :: p in RowMajor(width, rows) <==> p.0 < width && p.1 < rows
  {
    RowMajorLength(width, rows);
    RowMajorOrdered(width, rows);
    RowMajorCovers(width, rows);
  }

  lemma {:induction false} RowMajorLength(width: nat, rows: nat)
    ensures |RowMajor(width, rows)| == width * rows
  {
    if rows > 0 {
      RowMajorLength(width, rows - 1);
      assert width * rows == width * (rows - 1) + width;
    }
  }

  lemma {:induction false} RowMajorCovers(width: nat, rows: nat)
    ensures forall p: Pos :: p in RowMajor(width, rows) <==> p.0 < width && p.1 < rows
  {
    if rows > 0 {
      RowMajorCovers(width, rows - 1);
      var a, b := RowMajor(width, rows - 1), RowPositions(rows - 1, width);
      assert RowMajor(width, rows) == a + b;
      forall p: Pos
        ensures p in a + b <==> p.0 < width && p.1 < rows
      {
        assert p in a + b <==> p in a || p in b;
        assert p in b <==> p.0 < width && p.1 == rows - 1 by {
          if p in b {
            var i :| 0 <= i < |b| && b[i] == p;
          }
          if p.0 < width && p.1 == rows - 1 {
            assert b[p.0] == p;
          }
        }
      }
    }
  }

  lemma {:induction false} RowMajorOrdered(width: nat, rows: nat)
    ensures StrictlyRowMajor(RowMajor(width, rows))
  {
    if rows > 0 {
      RowMajorOrdered(width, rows - 1);
      RowMajorRowsBelow(width, rows - 1);
      var a, b := RowMajor(width, rows - 1), RowPositions(rows - 1, width);
      var s := RowMajor(width, rows);
      assert s == a + b;
      forall i, j | 0 <= i < j < |s|
        ensures Before(s[i], s[j])
      {
        if j < |a| {
          assert s[i] == a[i] && s[j] == a[j];
        } else if i < |a| {
          assert s[i] == a[i] && s[j] == b[j - |a|];
        } else {
          assert s[i] == b[i - |a|] && s[j] == b[j - |a|];
        }
      }
    }
  }

  lemma {:induction false} RowMajorRowsBelow(width: nat, rows: nat)
    ensures forall i :: 0 <= i < |RowMajor(width, rows)| ==> RowMajor(width, rows)[i].1 < rows
  {
    if rows > 0 {
      RowMajorRowsBelow(width, rows - 1);
      var a, b := RowMajor(width, rows - 1), RowPositions(rows - 1, width);
      var s := RowMajor(width, rows);
      assert s == a + b;
      forall i | 0 <= i < |s|
        ensures s[i].1 < rows
      {
        if i < |a| {
          assert s[i] == a[i];
        } else {
          assert s[i] == b[i - |a|];
        }
      }
    }
  }

  /** Each in-range pixel appears exactly once in the scan. */
  lemma RowMajorExactlyOnce(width: nat, rows: nat, i: nat, j: nat)
    requires i < |RowMajor(width, rows)| && j < |RowMajor(width, rows)|
    requires RowMajor(width, rows)[i] == RowMajor(width, rows)[j]
    ensures i == j
  {
    RowMajorScan(width, rows);
  }

  /** The progress values `0 / height, 1 / height, ..., (rows - 1) / height`. */
  function Fractions(height: nat, rows: nat): (s: seq<real>)
    requires rows <= height
    ensures |s| == rows
  {
    if rows == 0 then [] else Fractions(height, rows - 1) + [(rows - 1) as real / height as real]
  }

  /** After a full pass there is one progress value per row; they start at
      0, strictly increase, and stay below 1: the last one is
      `(height - 1) / height`. */
  lemma {:induction false} FractionsRange(height: nat, rows: nat)
    requires rows <= height
    ensures forall k :: 0 <= k < rows ==> Fractions(height, rows)[k] == k as real / height as real
    ensures forall k :: 0 <= k < rows ==> 0.0 <= Fractions(height, rows)[k] < 1.0
    ensures forall k, l :: 0 <= k < l < rows ==> Fractions(height, rows)[k] < Fractions(height, rows)[l]
  {
    if rows > 0 {
      FractionsRange(height, rows - 1);
      var s := Fractions(height, rows);
      forall k | 0 <= k < rows
        ensures s[k] == k as real / height as real
      {
        if k < rows - 1 {
          assert s[k] == Fractions(height, rows - 1)[k];
        }
      }
      forall k, l | 0 <= k < l < rows
        ensures s[k] < s[l]
      {
        assert k as real < l as real;
        DivideMonotone(k as real, l as real, height as real);
      }
      forall k | 0 <= k < rows
        ensures 0.0 <= s[k] < 1.0
      {
        DivideMonotone(k as real, height as real, height as real);
      }
    }
  }

  lemma DivideMonotone(a: real, b: real, d: real)
    requires 0.0 <= a < b && d > 0.0
    ensures 0.0 <= a / d < b / d
  {
  }
}

=== FILE: theme.dfy ===
/** Colour themes of the fractal generator (fractal-theme).

    A theme maps an escape-step count and the point it was computed for to a
    24-bit colour, and fixes the step budget.  The crate picks exactly one
    theme at build time through a cargo feature; here the choice is a value
    of the `Theme` datatype instead. */
module Theme {
  import opened Words

  /** A 24-bit colour, one byte per channel. */
  datatype Color = Color(red: byte, green: byte, blue: byte)

  /** The integer themes.  `position` and `demo` are not modelled. */
  datatype Theme = Simple | Red | Green | Blue

  /** `Into<u32> for Color`: red in bits 0-7, green in bits 8-15, blue in
      bits 16-23.  The three shifted channels occupy disjoint bits, so the
      source's bitwise or is their sum. */
  function Pack(c: Color): (r: u32)
    ensures r < 0x100_0000
  {
    c.red + 0x100 * c.green + 0x1_0000 * c.blue
  }

  /** Distinct colours pack to distinct words. */
  lemma PackInjective(a: Color, b: Color)
    ensures Pack(a) == Pack(b) <==> a == b
  {
    if Pack(a) == Pack(b) {
      Base256(a.red, a.green + 0x100 * a.blue);
      Base256(b.red, b.green + 0x100 * b.blue);
      Base256(a.green, a.blue);
      Base256(b.green, b.blue);
    }
  }

  /** A byte followed by higher digits in base 256 reads back digit by digit. */
  lemma Base256(lo: byte, hi: nat)
    ensures (lo + 0x100 * hi) % 0x100 == lo
    ensures (lo + 0x100 * hi) / 0x100 == hi
  {
  }

  /** `steps as u8`: the low byte of the step count. */
  function Level(steps: nat): byte
  {
    steps % 256
  }

  /** The step budget every integer theme declares. */
  function MaxSteps(t: Theme): (m: nat)
    ensures m == 256
  {
    match t
    case Simple => 256
    case Red => 256
    case Green => 256
    case Blue => 256
  }

  /** The colour a theme gives to a point `(x, y)` that took `steps` steps. */
  function ColorOf(t: Theme, steps: nat, x: real, y: real): (c: Color)
    ensures t == Simple ==> c.red == c.green == c.blue == steps % 256
    ensures t == Red ==> c.red == steps % 256 && c.green == 0 && c.blue == 0
    ensures t == Green ==> c.green == steps % 256 && c.red == 0 && c.blue == 0
    ensures t == Blue ==> c.blue == steps % 256 && c.red == 0 && c.green == 0
  {
    var level := Level(steps);
    match t
    case Simple => Color(level, level, level)
    case Red => Color(level, 0, 0)
    case Green => Color(0, level, 0)
    case Blue => Color(0, 0, level)
  }

  /** The exported `color_pixel`: the theme's colour, packed. */
  function ColorPixel(t: Theme, steps: nat, x: real, y: real): (r: u32)
    ensures r < 0x100_0000
  {
    Pack(ColorOf(t, steps, x, y))
  }

  /** The integer themes depend on the step count only, never on the point,
      and only on its low byte. */
  lemma OnlyStepsMatter(t: Theme, steps: nat, x: real, y: real, steps': nat, x': real, y': real)
    ensures steps % 256 == steps' % 256 <==> ColorPixel(t, steps, x, y) == ColorPixel(t, steps', x', y')
  {
    PackInjective(ColorOf(t, steps, x, y), ColorOf(t, steps', x', y'));
  }

  /** A point that used the whole budget gets level 0: black under every
      integer theme. */
  lemma ExhaustedIsBlack(t: Theme, x: real, y: real)
    ensures ColorOf(t, MaxSteps(t), x, y) == Color(0, 0, 0)
    ensures ColorPixel(t, MaxSteps(t), x, y) == 0
  {
  }
}

=== FILE: viewport.dfy ===
/** Mapping pixels to points of the complex plane.  A render is centred on
    `(center_re, center_im)`; one pixel spans `1 / 2^zoom` world units. */
module Viewport {
  import opened Words
  import opened Escape

  function Pow2(n: nat): (p: nat)
    ensures p >= 1
  {
    if n == 0 then 1 else 2 * Pow2(n - 1)
  }

  /** `1 / 2 ** zoom`; a negative zoom widens the pixel. */
  function Distance(zoom: int): (d: real)
    ensures d > 0.0
  {
    if zoom >= 0 then 1.0 / Pow2(zoom) as real else Pow2(-zoom) as real
  }

  /** Zoom 0 is one unit per pixel, and one more zoom level halves the pixel. */
  lemma {:induction false} DistanceHalves(zoom: int)
    ensures Distance(0) == 1.0
    ensures Distance(zoom + 1) * 2.0 == Distance(zoom)
  {
    if zoom < -1 {
      assert Pow2(-zoom) == 2 * Pow2(-zoom - 1);
    } else if zoom >= 0 {
      assert Pow2(zoom + 1) == 2 * Pow2(zoom);
    }
  }

  /** The built-in renderers' offset `pixel - dim / 2`: JavaScript divides
      numbers exactly, so an odd dimension puts the centre between pixels. */
  function NativeOffset(pixel: nat, dim: nat): real {
    pixel as real - dim as real / 2.0
  }

  /** `c = center + (pixel - dim / 2) * distance` in the built-in renderers. */
  function NativePoint(centerRe: real, centerIm: real, distance: real, width: nat, height: nat, x: nat, y: nat): Complex {
    Complex(centerRe + NativeOffset(x, width) * distance, centerIm + NativeOffset(y, height) * distance)
  }

  /** The kernel's `(pixel - dim / 2) as f64` with `u32` operands, as a
      release build computes it: the subtraction wraps modulo `2^32`. */
  function WrappingOffset(pixel: nat, dim: nat): real {
    ((pixel - dim / 2) % U32_LIMIT) as real
  }

  /** The signed offset the kernel evidently means: negative for the left
      and top halves, with `dim / 2` rounded down. */
  function SignedOffset(pixel: nat, dim: nat): real {
    (pixel - dim / 2) as real
  }

  /** Which subtraction a build of the kernel performs. */
  datatype OffsetArith = WrappingU32 | SignedI64

  function KernelOffset(arith: OffsetArith, pixel: nat, dim: nat): real {
    match arith
    case WrappingU32 => WrappingOffset(pixel, dim)
    case SignedI64 => SignedOffset(pixel, dim)
  }

  /** `c` in the kernel. */
  function KernelPoint(arith: OffsetArith, centerRe: real, centerIm: real, distance: real,
                       width: nat, height: nat, x: nat, y: nat): Complex
  {
    Complex(centerRe + KernelOffset(arith, x, width) * distance,
            centerIm + KernelOffset(arith, y, height) * distance)
  }

  /** On the right and bottom halves the wrapping subtraction is exact. */
  lemma WrappingAgreesOnUpperHalf(pixel: u32, dim: u32)
    requires pixel >= dim / 2
    ensures WrappingOffset(pixel, dim) == SignedOffset(pixel, dim)
  {
  }

  /** Both builds compute the same point for pixels in the lower-right
      quarter of the image. */
  lemma WrappingPointAgreesOnLowerRight(centerRe: real, centerIm: real, distance: real,
                                        width: u32, height: u32, x: u32, y: u32)
    requires width / 2 <= x && height / 2 <= y
    ensures KernelPoint(WrappingU32, centerRe, centerIm, distance, width, height, x, y)
         == KernelPoint(SignedI64, centerRe, centerIm, distance, width, height, x, y)
  {
    var ox := KernelOffset(WrappingU32, x, width);
    var oy := KernelOffset(WrappingU32, y, height);
    assert ox == KernelOffset(SignedI64, x, width) by { WrappingAgreesOnUpperHalf(x, width); }
    assert oy == KernelOffset(SignedI64, y, height) by { WrappingAgreesOnUpperHalf(y, height); }
    assert KernelPoint(WrappingU32, centerRe, centerIm, distance, width, height, x, y)
        == Complex(centerRe + ox * distance, centerIm + oy * distance);
  }

  /** On the left and top halves it lands `2^32` too far right or down. */
  lemma WrappingOverflowsOnLowerHalf(pixel: u32, dim: u32)
    requires pixel < dim / 2
    ensures WrappingOffset(pixel, dim) == SignedOffset(pixel, dim) + U32_LIMIT as real
    ensures WrappingOffset(pixel, dim) >= 0x8000_0000 as real
  {
  }

  /** The signed offset puts `dim / 2` at the centre, steps one unit per
      pixel, and for even dimensions equals the built-in renderers' offset;
      for odd ones it is half a pixel larger. */
  lemma SignedOffsetMatchesNative(pixel: nat, dim: nat)
    ensures SignedOffset(dim / 2, dim) == 0.0
    ensures SignedOffset(pixel + 1, dim) == SignedOffset(pixel, dim) + 1.0
    ensures dim % 2 == 0 ==> SignedOffset(pixel, dim) == NativeOffset(pixel, dim)
    ensures dim % 2 == 1 ==> SignedOffset(pixel, dim) == NativeOffset(pixel, dim) + 0.5
  {
    assert dim as real == 2.0 * (dim / 2) as real + (dim % 2) as real;
  }

  /** With the signed subtraction the kernel computes the same point as the
      built-in renderers for even image sizes. */
  lemma SignedKernelPointMatchesNative(centerRe: real, centerIm: real, distance: real,
                                       width: nat, height: nat, x: nat, y: nat)
    requires width % 2 == 0 && height % 2 == 0
    ensures KernelPoint(SignedI64, centerRe, centerIm, distance, width, height, x, y)
         == NativePoint(centerRe, centerIm, distance, width, height, x, y)
  {
    SignedOffsetMatchesNative(x, width);
    SignedOffsetMatchesNative(y, height);
    var ox, oy := NativeOffset(x, width), NativeOffset(y, height);
    assert KernelOffset(SignedI64, x, width) == ox;
    assert KernelOffset(SignedI64, y, height) == oy;
    assert KernelPoint(SignedI64, centerRe, centerIm, distance, width, height, x, y)
        == Complex(centerRe + ox * distance, centerIm + oy * distance);
  }
}

=== FILE: wasm_simple.dfy ===
/** The introductory WebAssembly example (wasm-simple): an exported `add` on
    unsigned 64-bit integers, and the function body the compiler emits for
    it, run on a small model of WebAssembly's operand stack. */
module WasmSimple {
  import opened Words

  /** `a + b` on `u64` as the compiled module computes it: `i64.add` wraps
      modulo `2^64`. */
  function Add(a: u64, b: u64): (r: u64) {
    (a + b) % U64_LIMIT
  }

  /** The sum is exact exactly when it fits in 64 bits; otherwise it is
      `2^64` short of it. */
  lemma AddExact(a: u64, b: u64)
    ensures a + b < U64_LIMIT <==> Add(a, b) == a + b
    ensures a + b >= U64_LIMIT ==> Add(a, b) == a + b - U64_LIMIT
  {
  }

  lemma AddCommutes(a: u64, b: u64)
    ensures Add(a, b) == Add(b, a)
  {
  }

  lemma AddZero(a: u64)
    ensures Add(a, 0) == a && Add(0, a) == a
  {
  }

  /** The instructions the compiled body uses. */
  datatype Instr = LocalGet(index: nat) | I64Add

  /** `local.get 1; local.get 0; i64.add`: the body emitted for `add`. */
  const AddBody: seq<Instr> := [LocalGet(1), LocalGet(0), I64Add]

  /** Runs `code` with the function's parameters as `locals` on the operand
      stack `stack` (top at the end).  A missing local or a stack too short
      for `i64.add` traps. */
  function Exec(locals: seq<u64>, code: seq<Instr>, stack: seq<u64>): (r: Option<seq<u64>>)
    ensures code == [] ==> r == Some(stack)
    decreases |code|
  {
    if code == [] then Some(stack)
    else
      match code[0]
      case LocalGet(i) =>
        if i < |locals| then Exec(locals, code[1..], stack + [locals[i]]) else None
      case I64Add =>
        if |stack| < 2 then None
        else
          var lhs, rhs := stack[|stack| - 2], stack[|stack| - 1];
          Exec(locals, code[1..], stack[..|stack| - 2] + [Add(lhs, rhs)])
  }

  /** The emitted body computes `add`: it pushes `b`, then `a`, and adds
      them, which wrapping addition does not tell apart from `a + b`. */
  lemma CompiledAdd(a: u64, b: u64)
    ensures Exec([a, b], AddBody, []) == Some([Add(a, b)])
  {
    var locals := [a, b];
    assert AddBody[1..] == [LocalGet(0), I64Add];
    assert AddBody[1..][1..] == [I64Add];
    assert AddBody[1..][1..][1..] == [];
    assert [I64Add][1..] == [];
    assert [b, a][..0] + [Add(b, a)] == [Add(b, a)];
    assert Exec(locals, [I64Add], [b, a]) == Some([Add(b, a)]);
    assert Exec(locals, AddBody[1..], [b]) == Some([Add(b, a)]);
    AddCommutes(a, b);
  }

  /** The body reads both parameters: given fewer it traps. */
  lemma CompiledAddNeedsBothParameters(locals: seq<u64>)
    requires |locals| < 2
    ensures Exec(locals, AddBody, []) == None
  {
  }
}

=== FILE: words.dfy ===
/** Fixed-width machine integers of the host and the modules, as integer
    ranges.  Masks and byte shifts of non-negative values are written as the
    remainder and quotient by powers of 256 they equal.  Also the optional
    value used for empty slots and failed executions. */
module Words {

  const U32_LIMIT: int := 0x1_0000_0000
  const U64_LIMIT: int := 0x1_0000_0000_0000_0000

  type byte = x: int | 0 <= x < 256
  type u32 = x: int | 0 <= x < U32_LIMIT
  type u64 = x: int | 0 <= x < U64_LIMIT

  datatype Option<T> = None | Some(value: T)

  /** A value below the modulus is its own remainder. */
  lemma SmallMod(n: nat, m: nat)
    requires n < m
    ensures n % m == n
  {
  }
}

=== FILE: worker.dfy ===
/** The render worker's message handler (`onmessage` in worker.js).

    The worker keeps three slots, each empty until the page sends it: the
    image buffer, the colour theme and the render kernel.  Loading a theme
    or kernel module is asynchronous in the source; here a slot holds the
    loaded module directly.  A kernel module is identified by the offset
    arithmetic its build performs. */
module Worker {
  import opened Words
  import opened Pixels
  import opened Viewport
  import opened Scan
  import opened Protocol
  import Theme
  import Native
  import Kernel

  /** The worker's slots and the messages it has posted to the page. */
  datatype Session = Session(image: Option<Image>, theme: Option<Theme.Theme>,
                             wasm: Option<OffsetArith>, posted: seq<Message>)
  {
    /** An installed image is one the kernel can address. */
    predicate Valid() {
      image.Some? ==> Kernel.Fits(image.value)
    }
  }

  /** The messages the page sends, by their `type` field; `Other` is any
      type the handler does not recognise. */
  datatype Command =
    | SetImage(image: Image)
    | SetTheme(theme: Theme.Theme)
    | SetWasm(arith: OffsetArith)
    | RenderNative(x: real, y: real, zoom: int)
    | RenderWasm(x: real, y: real, wasmZoom: nat)
    | Other

  /** How a message was handled: normally, or by a `TypeError` thrown when
      the handler reached into an empty slot.  Every throw happens before
      the handler has drawn or posted anything, so a throw leaves the
      session as it was. */
  datatype Outcome = Handled(session: Session) | Threw

  /** The messages posted by a built-in pass, in order. */
  function Messages(t: seq<Native.Event>): seq<Message> {
    if t == [] then []
    else (if t[0].Posted? then [t[0].msg] else []) + Messages(t[1..])
  }

  lemma {:induction false} MessagesAppend(a: seq<Native.Event>, b: seq<Native.Event>)
    ensures Messages(a + b) == Messages(a) + Messages(b)
  {
    if a != [] {
      assert (a + b)[1..] == a[1..] + b;
      assert (a + b)[0] == a[0];
      MessagesAppend(a[1..], b);
    } else {
      assert a + b == b;
    }
  }

  lemma MessagesOfDraws(colors: (nat, nat) -> u32, y: nat, n: nat)
    ensures Messages(Native.RowDraws(colors, y, n)) == []
  {
    if n > 0 {
      MessagesOfDraws(colors, y, n - 1);
      MessagesAppend(Native.RowDraws(colors, y, n - 1), [Native.Drew(n - 1, y, colors(n - 1, y))]);
    }
  }

  /** The built-in worker pass posts one progress message per row, the
      value `y / height`, in row order. */
  lemma {:induction false} MessagesOfRows(colors: (nat, nat) -> u32, width: nat, height: nat, rows: nat)
    requires rows <= height
    ensures Messages(Native.Rows(colors, width, height, rows, true))
         == Kernel.ProgressMessages(Fractions(height, rows))
  {
    if rows > 0 {
      var a := Native.Rows(colors, width, height, rows - 1, true);
      var b := Native.RowDraws(colors, rows - 1, width);
      var f := (rows - 1) as real / height as real;
      MessagesOfRows(colors, width, height, rows - 1);
      MessagesOfDraws(colors, rows - 1, width);
      MessagesAppend(a, b);
      MessagesAppend(a + b, [Native.Posted(ProgressMsg(f))]);
      assert Messages([Native.Posted(ProgressMsg(f))]) == [ProgressMsg(f)] by {
        assert [Native.Posted(ProgressMsg(f))][1..] == [];
      }
      Kernel.ProgressMessagesSnoc(Fractions(height, rows - 1), f);
    }
  }

  /** What a finished render posts: `height` progress messages and then the
      finished image. */
  function PassMessages(height: nat, out: Image): seq<Message> {
    Kernel.ProgressMessages(Fractions(height, height)) + [PaintMsg(out)]
  }

  /** `render_native`: reads the image's size and the theme's budget before
      anything else, so an empty image or theme slot throws at once. */
  method HandleRenderNative(s: Session, x: real, y: real, zoom: int) returns (r: Outcome)
    requires s.Valid()
    ensures r.Threw? <==> s.image.None? || s.theme.None?
    ensures r.Handled? ==> r.session.image.Some? && s.image.Some?
    ensures r.Handled? ==>
      var out := r.session.image.value;
      var img := s.image.value;
      && r.session == s.(image := Some(out), posted := s.posted + PassMessages(img.height, out))
      && out.Valid() && out.width == img.width && out.height == img.height
      && (forall px, py :: 0 <= px < out.width && 0 <= py < out.height ==>
            PixelAt(out, px, py) == Rgba(Native.PixelColor(s.theme.value, Native.View(x, y, zoom), out.width, out.height, px, py)))
  {
    if s.image.None? || s.theme.None? {
      return Threw;
    }
    var img := s.image.value;
    var out, trace := Native.RenderWorker(img, s.theme.value, Native.View(x, y, zoom));
    ghost var colors := Native.PixelColors(s.theme.value, Native.View(x, y, zoom), img.width, img.height);
    assert Messages(trace) == PassMessages(img.height, out) by {
      MessagesOfRows(colors, img.width, img.height, img.height);
      MessagesAppend(Native.Rows(colors, img.width, img.height, img.height, true), [Native.Posted(PaintMsg(out))]);
      assert [Native.Posted(PaintMsg(out))][1..] == [];
    }
    r := Handled(s.(image := Some(out), posted := s.posted + Messages(trace)));
  }

  /** `wasm.render` with the worker's imports.  The kernel asks for the
      width and height first, so an empty image slot throws before anything
      happens.  It asks for the theme only inside `draw_steps`, so an empty
      theme slot throws at the first pixel, before any write or message, and
      does not throw at all when the image has no pixels: then the pass only
      reports progress and paints, and which theme would have been used
      makes no difference. */
  method HandleRenderWasm(s: Session, x: real, y: real, zoom: nat) returns (r: Outcome)
    requires s.Valid() && zoom < 64
    ensures r.Threw? <==>
      s.wasm.None? || s.image.None? || (s.theme.None? && s.image.value.width * s.image.value.height > 0)
    ensures r.Handled? ==> r.session.image.Some? && s.image.Some?
    ensures r.Handled? ==>
      var out := r.session.image.value;
      var img := s.image.value;
      var theme := if s.theme.Some? then s.theme.value else Theme.Simple;
      var p := Kernel.Pass(theme, s.wasm.value, x, y, Distance(zoom), img.width, img.height);
      && r.session == s.(image := Some(out), posted := s.posted + PassMessages(img.height, out))
      && out.Valid() && out.width == img.width && out.height == img.height
      && (forall px, py :: 0 <= px < out.width && 0 <= py < out.height ==>
            PixelAt(out, px, py) == Rgba(Kernel.PixelColorOf(p, px, py)))
  {
    if s.wasm.None? || s.image.None? {
      return Threw;
    }
    var img := s.image.value;
    if s.theme.None? && img.width * img.height > 0 {
      return Threw;
    }
    var theme := if s.theme.Some? then s.theme.value else Theme.Simple;
    var host, calls := Kernel.Render(Kernel.Host(img, theme, s.posted), s.wasm.value, x, y, zoom);
    r := Handled(s.(image := Some(host.image), posted := host.posted));
  }

  /** `onmessage`: the three slot messages replace their slot and leave
      everything else alone, the render messages run a pass, and a message
      of any other type is ignored. */
  method OnMessage(s: Session, cmd: Command) returns (r: Outcome)
    requires s.Valid()
    requires cmd.SetImage? ==> Kernel.Fits(cmd.image)
    requires cmd.RenderWasm? ==> cmd.wasmZoom < 64
    ensures r.Handled? ==> r.session.Valid()
    ensures cmd.SetImage? ==> r == Handled(s.(image := Some(cmd.image)))
    ensures cmd.SetTheme? ==> r == Handled(s.(theme := Some(cmd.theme)))
    ensures cmd.SetWasm? ==> r == Handled(s.(wasm := Some(cmd.arith)))
    ensures cmd.Other? ==> r == Handled(s)
    ensures cmd.RenderNative? || cmd.RenderWasm? ==>
      (r.Handled? ==> r.session.theme == s.theme && r.session.wasm == s.wasm
                      && r.session.image.Some? && s.image.Some?
                      && r.session.posted == s.posted + PassMessages(s.image.value.height, r.session.image.value))
    ensures cmd.RenderNative? ==> (r.Threw? <==> s.image.None? || s.theme.None?)
    ensures cmd.RenderWasm? ==>
      (r.Threw? <==> s.wasm.None? || s.image.None? || (s.theme.None? && s.image.value.width * s.image.value.height > 0))
  {
    match cmd
    case SetImage(image) =>
      r := Handled(s.(image := Some(image)));
    case SetTheme(theme) =>
      r := Handled(s.(theme := Some(theme)));
    case SetWasm(arith) =>
      r := Handled(s.(wasm := Some(arith)));
    case RenderNative(x, y, zoom) =>
      r := HandleRenderNative(s, x, y, zoom);
    case RenderWasm(x, y, zoom) =>
      r := HandleRenderWasm(s, x, y, zoom);
    case Other =>
      r := Handled(s);
  }

  /** The two render paths agree when the kernel is the signed build, the
      image has even dimensions and the zoom is not negative: the buffers
      they leave are equal, and so are the messages they post. */
  lemma RenderPathsAgree(theme: Theme.Theme, x: real, y: real, zoom: nat, a: Image, b: Image)
    requires a.Valid() && b.Valid() && a.width == b.width && a.height == b.height
    requires a.width % 2 == 0 && a.height % 2 == 0
    requires forall px, py :: 0 <= px < a.width && 0 <= py < a.height ==>
      PixelAt(a, px, py) == Rgba(Native.PixelColor(theme, Native.View(x, y, zoom), a.width, a.height, px, py))
    requires forall px, py :: 0 <= px < b.width && 0 <= py < b.height ==>
      PixelAt(b, px, py) == Rgba(Kernel.PixelColorOf(Kernel.Pass(theme, SignedI64, x, y, Distance(zoom), b.width, b.height), px, py))
    ensures a == b
    ensures PassMessages(a.height, a) == PassMessages(b.height, b)
  {
    forall px, py | 0 <= px < a.width && 0 <= py < a.height
      ensures PixelAt(a, px, py) == PixelAt(b, px, py)
    {
      Kernel.SignedMatchesNative(theme, Native.View(x, y, zoom), a.width, a.height, px, py);
    }
    PixelsDetermineImage(a, b);
  }
}
